=== FILE: README.md ===
# Auth0 login bridge for October CMS — a Dafny model

The plugin signs visitors of an October CMS site in through Auth0. It has
four parts:

- A login route sends the browser to the tenant's `/authorize` endpoint, either
  through the Socialite driver or through a URL built by hand. Before doing so
  it stashes the page the visitor meant to reach.
- A callback route checks what Auth0 sends back and exchanges the code for the
  Auth0 user. It then finds, links or creates the local RainLab user, signs
  them in and returns them to the stashed page. The host of that page is
  checked against the request's own.
- A logout route signs the user out locally and sends them to Auth0's
  `/v2/logout`.
- A user-info service fetches `/userinfo`, merges the Rhythm claims and
  metadata, and fills the user's empty profile fields.

The model is one Dafny module per concern:

| module | file | models |
|---|---|---|
| `Wrappers` | wrappers.dfy | `Option` and `Result` |
| `Php` | php.dfy | `empty()`, `trim()`, `explode()`/`strstr()` as `SplitAt`, `urlencode()`, `http_build_query()`, PHP truthiness and decoded JSON |
| `Urls` | urls.dfy | a simplified `parse_url()`: the generic syntax of section 3 of RFC 3986, plus PHP's reading of a scheme-less "host:port" and its cut of the port at the last ':' |
| `Settings` | settings.dfy | the settings model, `isConfigured()`, the defaults, `getAuth0Config()`, and domain normalisation |
| `Http` | http.dfy | the request, the responses, and the session with the signed-in user |
| `Users` | users.dfy | the user records and name derivation; the username search; the lookup chain of `findOrCreateUser()`; the `UserStore` class whose methods change the stored users |
| `UserInfo` | userinfo.dfy | `Auth0UserInfoService`: the endpoint, the Rhythm claim merge, and the profile update |
| `LoginFlow` | loginflow.dfy | `Auth0Provider`: the redirect to Auth0, the callback guards, the exchange errors, the return-page sanitiser, and logout |
| `Routes` | routes.dfy | the routes and listener of `Plugin.php` |

**Inputs instead of calls.** Everything the plugin asks of the outside world
is handed to the model as an input:

- the Socialite driver's redirect, as a function from the driver configuration to a URL or an error;
- the code exchange, as an `ExchangeOutcome`;
- the `/userinfo` HTTP call, as a function from the endpoint and token to a reply;
- the contact id decoded from the ID token;
- whether the database save succeeds;
- the clock, the client IP, the random password and the known user groups, as an `Env`;
- whether the application runs in production, and the exception trace text.

**Two behaviours of the code worth knowing.**

- Names derived from an email are not capitalised
  (classes/Auth0Provider.php:324-341). The dots of the local part (or, without
  dots, its underscores) become spaces, and the result is split at its first
  space and used as it is. So `jane.doe@x.com` gives "jane"/"doe", as
  `Users.JaneDoe` proves.
- The plugin's own comparison of the session's and the request's `state`
  rejects nothing (classes/Auth0Provider.php:142-159): beyond requiring a
  non-empty `state`, a mismatch there is only noted. With `stateless_mode`
  off, the default, the code then calls the driver's `user()` (lines 161-166),
  which checks the state against the session itself; a rejection there comes
  back through the `catch` at lines 168-200 as an exchange failure. In the
  model that driver check lives inside the exchange outcome, an input of
  `LoginFlow.HandleCallback`, which therefore does not read the stored state.

## Model

| member | source | states |
|---|---|---|
| Settings.Defaults | models/Settings.php:16-27 | the initial settings: empty domain, client id, secret and URLs; auto-create and sync on; no default group; stateless mode off; and they are not configured |
| Settings.SettingsModel.InitSettingsData | models/Settings.php:16-27 | after initialisation the settings equal the defaults and are not configured |
| Settings.IsConfigured | models/Settings.php:42-49 | configured exactly when domain, client id and client secret are all non-empty in the sense of `empty()` ("0" counts as empty) |
| Settings.GetAuth0Config | models/Settings.php:29-40 | domain, id and secret are passed through; the redirect is the callback URL, else the app's `/auth0/callback`; the logout URL is the stored one, else the app root |
| Settings.DefaultUrls | models/Settings.php:37-38 | with nothing stored, the redirect is root + "/auth0/callback" and the logout URL is the root itself |
| Settings.UrlToPath | models/Settings.php:37 | `url()` joins the root and a path with exactly one slash |
| Settings.WithHttps | classes/Auth0Provider.php:578-581 | the base URL always carries an http(s) scheme; a domain with one is kept, any other gets "https://" in front |
| Settings.NormalizedDomain | classes/Auth0UserInfoService.php:15-20 | the domain with slashes trimmed from both ends; a trimmed domain with an http(s) scheme is kept as it is, any other gets "https://" in front; the result always has a scheme, and it has no trailing slash when the trimmed domain is non-empty (an empty or all-slash domain gives "https://") |
| Settings.NormalizedDomainIdempotent | classes/Auth0UserInfoService.php:15-20 | normalising an already normalised domain changes nothing |
| Settings.NormalizedHost | classes/Auth0UserInfoService.php:15-20 | a bare host becomes "https://" + host, while "https://" + host and "http://" + host are left as they are |
| Php.EncodedPairs | classes/Auth0Provider.php:91 | the pairs in order, each key and value url-encoded |
| Php.QueryRoundTrip | classes/Auth0Provider.php:91 | splitting the built query at '&' and '=' gives back exactly `EncodedPairs` of the parameters: no value leaks into another parameter |
| Php.UrlEncodeAppend | classes/Auth0Provider.php:535 | `urlencode` works character by character: encoding a concatenation is concatenating the encodings |
| Php.EncodedHasNoDelimiters | classes/Auth0Provider.php:535 | an encoded value contains no '&', '=', '?', '#', '/' or space, so it cannot break out of its query parameter |
| Users.ParseFullName | classes/Auth0Provider.php:483-491 | the trimmed name is cut at its first space only: the first part has no space, and first + " " + last is the trimmed name; with no space the last name is "" |
| Users.EmailPrefix | classes/Auth0Provider.php:499 | the part of the email before its first '@' |
| Users.EmailName | classes/Auth0Provider.php:325-340 | a local part with a '.' has its dots turned into spaces and is split as a full name; without a '.', one with a '_' is treated the same way with its underscores; otherwise the whole local part is the first name and the last name is empty |
| Users.DeriveName | classes/Auth0Provider.php:297-341 | the first source that is set wins: `given_name` (with `family_name`), else the trimmed `name` split at its first space, else the nickname (split when it holds a space), else the email's local part as `EmailName` says, else empty names |
| Users.CreatedName | classes/Auth0Provider.php:297-346 | the derived name with an empty first name replaced by "User", so a created user's first name is never empty; the last name is the derived one |
| Users.EmailNameKeepsCharacters | classes/Auth0Provider.php:325-337 | a local part containing '.' splits into first and last names that, joined by a space, give the local part with every '.' turned into a space; nothing is capitalised |
| Users.JaneDoe | classes/Auth0Provider.php:324-341 | with only the email `jane.doe@x.com`, the derived name is "jane"/"doe" |
| Users.CandidatesDistinct | classes/Auth0Provider.php:505-507 | the candidates base, base1, base2, … are pairwise different: suffixes are appended to the base, never chained |
| Users.FirstFree | classes/Auth0Provider.php:505-508 | the search stops at the first candidate that is not taken, and every earlier one is taken |
| Users.FirstFreeUnique | classes/Auth0Provider.php:505-508 | the search result is the smallest free index |
| Users.UsernameFor | classes/Auth0Provider.php:496-511 | the username is not taken; it is the email prefix itself when free, else the first free prefix+k |
| Users.UserStore.GenerateUsername | classes/Auth0Provider.php:496-511 | the `while` loop returns the first free candidate, which is not a taken username |
| Users.FindByAuth0Id | classes/Auth0Provider.php:265 | the first user whose Auth0 id is the subject; None exactly when no user has it |
| Users.FindByEmail | classes/Auth0Provider.php:276 | the first user with the email; None exactly when no user has it |
| Users.DefaultGroup | classes/Auth0Provider.php:369-374 | a default group is used exactly when it is configured, non-zero and existing, and then it is the configured one |
| Users.NewUser | classes/Auth0Provider.php:348-377 | the created user: the names of `CreatedName` and the claims' avatar, the subject as Auth0 id, the tokens, activated now, not a guest, the request IP as created and last IP, the default group as primary group and as member group; no contact id and no userinfo yet |
| Users.SyncedName | classes/Auth0Provider.php:411-464 | the first name is replaced only when empty or "User" and the derived one is non-empty; the last name only when empty and the derived one is non-empty |
| Users.UpdatedFromAuth0 | classes/Auth0Provider.php:396-471 | the same account (email, username, groups, …); the subject, all three tokens and the last IP always overwritten; the avatar filled only when empty with sync on; the names as `SyncedName` with sync on and untouched with sync off; activation set only when unset |
| Users.UpdateKeepsFilled | classes/Auth0Provider.php:404-471 | a filled first name (not "User"), last name, avatar or activation date is never overwritten |
| Users.UpdateIdempotent | classes/Auth0Provider.php:396-471 | updating twice with the same claims gives the same user as updating once |
| Users.UpdateOfNewUser | classes/Auth0Provider.php:396-471 | updating a user just created from the same claims changes nothing |
| Users.Resolve | classes/Auth0Provider.php:262-290 | the resolved user carries the subject; resolution fails exactly when neither the subject nor the email is known and auto-create is off, and then the store is unchanged; at most one user is appended, and nothing before it moves |
| Users.ResolvePrefersSubject | classes/Auth0Provider.php:264-273 | a match on the Auth0 id wins over any email match; with sync off that user is returned and the store is unchanged, tokens included; with sync on exactly that user is replaced by `UpdatedFromAuth0` of it |
| Users.ResolveLinksByEmail | classes/Auth0Provider.php:275-282 | with no id match, the first user with the email is linked through the update whatever the sync setting |
| Users.ResolveCreates | classes/Auth0Provider.php:284-289 | with no match, auto-create off fails and leaves the store unchanged; auto-create on appends exactly one new user with a free username and the names of `CreatedName` |
| Users.ResolveKeepsUnique | classes/Auth0Provider.php:262-290 | unique usernames and unique Auth0 ids stay unique |
| Users.ResolveIdempotent | classes/Auth0Provider.php:262-290 | a second sign-in with the same claims finds the same user and creates nobody |
| Users.FirstLinkedAfterResolve | classes/Auth0Provider.php:262-290 | after resolution, the id lookup finds the resolved user |
| Users.UserStore.UpdateUserFromAuth0 | classes/Auth0Provider.php:396-478 | only the updated user's record changes, to `UpdatedFromAuth0` of its old value |
| Users.UserStore.CreateUserFromAuth0 | classes/Auth0Provider.php:295-391 | exactly one new user is appended, with the first free username, and its index is returned |
| Users.UserStore.FindOrCreateUser | classes/Auth0Provider.php:262-290 | the answer and the new store are those of `Resolve` on the old store |
| UserInfo.MergeIn | classes/Auth0UserInfoService.php:113-119 | merging in an absent value changes nothing; an object adds its keys, and later keys win; any other value is the `array_merge` TypeError naming the value's type |
| UserInfo.Truthful | classes/Auth0UserInfoService.php:121 | exactly the truthy entries are kept, unchanged |
| UserInfo.ExtractRhythmData | classes/Auth0UserInfoService.php:98-122 | a non-object gives the empty map; every kept value is truthy; it fails exactly when an app or user `rhythm` entry is set but is not an object |
| UserInfo.RhythmPrecedence | classes/Auth0UserInfoService.php:105-121 | for each key, user metadata beats app metadata, which beats the four custom claims, and a falsy winner is dropped |
| UserInfo.Fetched | classes/Auth0UserInfoService.php:47-89 | the info is returned exactly when the reply is a 200 that decodes to an object, and then it is the decoded JSON; a transport failure keeps its message; another status gives the exception "Auth0 User Info request failed with status " + code + ": " + body; a decoding error gives the exception "Failed to parse Auth0 User Info response: " + the decoder's message; any other decoded value makes `array_filter` throw a TypeError, which the `catch` does not handle |
| UserInfo.UserInfoService.constructor | classes/Auth0UserInfoService.php:12-21 | the service's domain is the normalised settings domain |
| UserInfo.UserInfoService.GetUserInfo | classes/Auth0UserInfoService.php:29-90 | an empty token throws "Access token is required" before any request; otherwise the answer is `Fetched` of domain + "/userinfo" asked with the token |
| UserInfo.UserInfoService.TestConnection | classes/Auth0UserInfoService.php:210-236 | no token gives the unsuccessful result without a request; an exception from the fetch gives "Connection failed: " + message; a TypeError from the fetch or the claim merge escapes; otherwise the result is connected, with the subject and email ("Unknown" when missing) and the extracted Rhythm data |
| UserInfo.ContactStep | classes/Auth0UserInfoService.php:137-156 | only the contact id changes: to a truthy extracted `contact_id`, else to the token's contact when the field is empty and an ID token is present, else it is kept |
| UserInfo.NameParts | classes/Auth0UserInfoService.php:159-160 | the `name` claim is used exactly when it is set and truthy, and then its trimmed text is split at the first space |
| UserInfo.NameStep | classes/Auth0UserInfoService.php:159-167 | only the names change; without a usable `name` nothing changes; an empty or "User" first name becomes the first word; an empty last name becomes the rest when there is one; filled names are kept |
| UserInfo.FillStep | classes/Auth0UserInfoService.php:169-179 | only the names and avatar change: `given_name` fills an empty or "User" first name, `family_name` an empty last name, `picture` an empty avatar; an unset claim or a filled field leaves the field as it is |
| UserInfo.ApplyUserInfo | classes/Auth0UserInfoService.php:135-183 | the whole info and the time are stored; filled fields are kept; the contact id follows the merged claim, else the token's contact; an open first name becomes the `name` claim's first word, and `given_name` only when that left it open; an empty last name becomes the rest of `name`, else `family_name`; an empty avatar takes `picture`; every other field of the record (email, username, password, Auth0 id, all three tokens, activation, guest flag, IPs, primary group, groups) is unchanged |
| UserInfo.NameClaimWins | classes/Auth0UserInfoService.php:159-171 | a non-empty `name` claim sets an open first name to its first word, and `given_name`, applied later, no longer touches it |
| UserInfo.GivenNameFills | classes/Auth0UserInfoService.php:169-171 | without a `name` claim, `given_name` fills an open first name |
| UserInfo.SetContact | classes/Auth0UserInfoService.php:137-156 | the step-by-step assignment equals `ContactStep` |
| UserInfo.SetNames | classes/Auth0UserInfoService.php:159-167 | the step-by-step assignment equals `NameStep` |
| UserInfo.FillClaims | classes/Auth0UserInfoService.php:169-179 | the step-by-step assignment equals `FillStep` |
| UserInfo.UserInfoService.UpdateUserFromUserInfo | classes/Auth0UserInfoService.php:131-202 | a failed extraction is an uncaught error and changes nothing; otherwise the answer is whether the save succeeded, and a successful save stores `ApplyUserInfo` of the old record in place of it |
| LoginFlow.Message | classes/Auth0Provider.php:103-200 | the text of each refusal as the code writes it: not configured, "Auth0 Error: " + error + " - " + description, no code, no state, "Auth0 API Error (" + status or "Unknown" + "): " + body or "No response body", "Failed to authenticate with Auth0: " + message or "Unknown error - Class: … at file:line", and the auto-create refusal of line 286 |
| LoginFlow.CallbackUrl | classes/Auth0Provider.php:544-568 | the trimmed stored callback URL when non-empty; otherwise "https" when the request is secure or `X-Forwarded-Proto` is "https", else "http", then "://", then `X-Forwarded-Host` when present, else the request's host and port, then "/auth0/callback" |
| LoginFlow.CallbackUrlBehindProxy | classes/Auth0Provider.php:557-567 | behind a proxy that sends `X-Forwarded-Host`, the callback URL names the forwarded host, whatever the request's own host |
| LoginFlow.CallbackUrlOwnHost | classes/Auth0Provider.php:554-567 | with nothing stored and no proxy headers, the callback URL names the request's own host |
| LoginFlow.DriverConfig | classes/Auth0Provider.php:573-593 | the driver's base URL is the domain itself when it has an http(s) scheme and "https://" + domain otherwise; id and secret are passed through; the redirect is the callback URL |
| LoginFlow.StashIntended | classes/Auth0Provider.php:46-65 | `auth0_intended` becomes `url.intended` (consumed), else the `redirect` parameter, else the existing `auth0_intended`, else "/"; no other key changes |
| LoginFlow.StashIntendedIdempotent | classes/Auth0Provider.php:59-64 | without a `redirect` parameter a second stash keeps the first one's target |
| LoginFlow.FallbackAuthorizeUrl | classes/Auth0Provider.php:78-91 | the hand-built authorization URL starts with an http(s) scheme |
| LoginFlow.FallbackAuthorizeParts | classes/Auth0Provider.php:78-91 | for a tenant stored bare or with an http(s) scheme, the hand-built URL reads back as the tenant's host, the path "/authorize", the built query and no fragment |
| LoginFlow.FallbackAuthorizeQuery | classes/Auth0Provider.php:84-91 | the query holds exactly client_id, redirect_uri, response_type=code and scope="openid profile email", url-encoded and in that order; in particular it carries no `state` |
| LoginFlow.RedirectToAuth0 | classes/Auth0Provider.php:37-95 | unconfigured: fails before touching the session; otherwise, with a session, the intended page is stashed as `StashIntended` says, and the answer is the driver's URL or the fallback URL; the signed-in user is untouched |
| LoginFlow.HandleBeforeAuthenticate | classes/Auth0Provider.php:24-32 | the Auth0 redirect is started exactly when `credentials['auth0']` is the boolean true; otherwise nothing happens and null is returned. The `beforeAuthenticate` listener returns this result unchanged |
| LoginFlow.CallbackGuard | classes/Auth0Provider.php:102-123 | the checks run in order: configuration, the provider's `error` (with its description or "Unknown error"), then an empty `code`, then an empty `state`; each failure is the first one met, and the callback proceeds exactly when all pass |
| LoginFlow.ExchangeError | classes/Auth0Provider.php:168-200 | a client error becomes the API error with its response, any other failure the authentication failure with its message, class, file and line; only an authenticated user passes |
| LoginFlow.ReturnTarget | classes/Auth0Provider.php:215-220 | without a session "/"; with one `auth0_intended`, else `url.intended`, else "/"; the result is "/" or a stored value |
| LoginFlow.SanitizeTarget | classes/Auth0Provider.php:222-249 | the result is "" or starts with '/'; a foreign host becomes "/"; a target without a host is kept with a leading '/'; a same-host URL keeps its path (or "/"), its query and its fragment; a host is what `ParseUrl` reads, including a scheme-less "host:port" (see `SanitizeHostPort`) |
| LoginFlow.SanitizeHostPort | classes/Auth0Provider.php:223-240 | a scheme-less "host:port" target, with or without a path, becomes "/" when the host is another one, and its path (or "/") on the request's own host |
| Urls.ParseHostPort | classes/Auth0Provider.php:224 | `parse_url` reads a scheme-less host of scheme characters, ':' and a port of one to five digits no larger than 65535 as that host, followed by its path |
| LoginFlow.SanitizeOwnUrl | classes/Auth0Provider.php:231-240 | an http(s) URL on the request's host comes back as its path, '?', query, '#' and fragment |
| LoginFlow.SanitizeTargetAsWritten | classes/Auth0Provider.php:222-249 | the code as written agrees with `SanitizeTarget` on every target except "0", which it leaves as "0" where the corrected one gives "/0" |
| LoginFlow.CallbackStaysOnHost | classes/Auth0Provider.php:247-256 | whatever the stored target, the final redirect names the request's own host |
| LoginFlow.SanitizeAsWrittenLeavesHost | classes/Auth0Provider.php:247-249 | the target "0" is left without a leading '/', and the redirect lands on host "mysite.com0" |
| LoginFlow.PullReturnTarget | classes/Auth0Provider.php:215-220 | the target is `auth0_intended`, else `url.intended`, else "/" (always "/" without a session); with a session both keys are removed, because the inner pull runs first; the user is untouched |
| LoginFlow.HandleCallback | classes/Auth0Provider.php:100-256 | a failed guard or exchange changes nothing; otherwise the user is resolved as `Resolve` says and signed in; both intended-page keys are pulled; the answer is the request's origin plus the sanitised target; the plugin's own state comparison rejects nothing, and the driver's state check is part of the exchange outcome |
| LoginFlow.LogoutReturnUrl | classes/Auth0Provider.php:524-529 | the stored logout URL when it is non-empty |
| LoginFlow.LogoutReturnsHome | classes/Auth0Provider.php:524-529 | without a stored logout URL, the return URL names the request's host |
| LoginFlow.LogoutQueryIsBuilt | classes/Auth0Provider.php:531-536 | for a client id of unreserved characters, the query is exactly `http_build_query` of `client_id` and `returnTo`, so it reads back as those two parameters |
| LoginFlow.LogoutPath | classes/Auth0Provider.php:531-536 | the logout path and query start with '/' |
| LoginFlow.LogoutAsWritten | classes/Auth0Provider.php:516-536 | for a domain stored bare, without slashes at its ends, the code as written gives the same URL as the corrected `Logout` |
| LoginFlow.Logout | classes/Auth0Provider.php:516-539 | no domain gives "/"; otherwise an http(s) URL on the normalised domain |
| LoginFlow.LogoutHost | classes/Auth0Provider.php:516-539 | whether the tenant is stored bare, with "https://" or with "http://", the logout URL names the tenant's host |
| LoginFlow.LogoutTarget | classes/Auth0Provider.php:516-536 | for a tenant stored bare or with an http(s) scheme and a client id without '#', the logout URL reads back as the tenant's host, the path "/v2/logout", the logout query and no fragment |
| LoginFlow.LogoutAsWrittenHost | classes/Auth0Provider.php:531-536 | as written, a domain stored as "https://" + host sends the logout to the host "https" |
| Http.OwnOriginKeepsHost | classes/Auth0Provider.php:253-254 | the request's scheme and host followed by nothing or by a path starting with '/' name the request's host |
| Routes.Handoff | Plugin.php:148-153 | `url.intended` is moved to `auth0_intended` and removed; without it the session is untouched; other keys are kept |
| Routes.LoginRoute | Plugin.php:146-157 | the session after the route is `StashIntended` of the handed-off session; unconfigured, the exception leaves the route; otherwise the answer redirects to the authorization URL |
| Routes.LoginRouteTarget | Plugin.php:148-156 | after the route the return page is the `redirect` parameter, else `url.intended`, else `auth0_intended`, else "/": an explicit parameter beats a stored `url.intended` |
| Routes.StoredIntendedWinsAlone | classes/Auth0Provider.php:52-57 | called without the route, a stored `url.intended` beats the `redirect` parameter |
| Routes.CallbackResponse | Plugin.php:126-137 | success redirects; outside production an exception becomes a 500 page starting "<pre>Auth0 Error: " + message and ending "</pre>"; in production it is rethrown |
| Routes.CallbackRoute | Plugin.php:126-137 | the answer is a redirect exactly when the guards pass, the exchange succeeds and the user resolves; only then is anyone signed in; the redirect is the request's origin plus the sanitised return target, stays on the request's host, and both intended-page keys are pulled; a failed guard, a failed exchange and auto-create being off each give `CallbackResponse` of that refusal (the 500 page, or the exception rethrown in production); a failed guard or exchange leaves the store alone, and an authenticated exchange leaves it as `Resolve` says |
| Routes.WebhookRoute | Plugin.php:139-144 | for any payload the answer is the JSON 200 `{"success": true}` and nothing else |
| Routes.LogoutRoute | Plugin.php:159-163 | the local user is signed out and the session data kept; the redirect is the logout URL, "/" without a domain, an http(s) URL otherwise |

## Findings

| source | as written | input that shows it | evidently intended | confidence | as-written member | corrected member |
|---|---|---|---|---|---|---|
| classes/Auth0Provider.php:247-249 | a leading '/' is added only when the target is not `empty()`, and `empty("0")` holds | `auth0_intended` = "0" on a request to https://mysite.com redirects to `https://mysite.com0`, host "mysite.com0" | every non-empty target is rooted, so the redirect stays on the request's host | not executed | LoginFlow.SanitizeAsWrittenLeavesHost | LoginFlow.CallbackStaysOnHost |
| classes/Auth0Provider.php:531-536 | the stored domain is put after "https://" without the normalisation that lines 79-82 and 578-581 apply | domain "https://tenant.auth0.com" gives `https://https://tenant.auth0.com/v2/logout?…`, whose host is "https" | the domain normalised as elsewhere, so the logout goes to the tenant | not executed | LoginFlow.LogoutAsWrittenHost | LoginFlow.LogoutHost |

Both corrections are in the model. `SanitizeTarget` roots every non-empty
target, and `HandleCallback` uses it. `Logout` normalises the domain, and
`Routes.LogoutRoute` uses it.

## Left out

- Logging (`Log::*`) and events (`Event::fire`) are side effects only and are not modelled.
- The Socialite driver's internals are not part of this model: the state it stores, the token request and the user mapping. Its redirect and exchange are inputs.
- The HTTP request to `/userinfo` and the JSON decoding are inputs. So is the base64 and JSON decoding of the ID token, which arrives as an optional contact value.
- Decoded JSON has objects, strings, integers, booleans and null. It has no lists and no floats.
- `array_merge` renumbers integer keys. The model's keys are strings, so this is not captured.
- `Users.EmailPrefix`: `strstr` returns `false` for an email without '@'. The model uses "", which PHP treats the same way wherever the value is used.
- PHP `null` and "" are one value in string fields. `empty()` treats them alike. Laravel's `ConvertEmptyStringsToNull` is not modelled.
- Database lookups compare exactly. A case-insensitive MySQL collation is not modelled.
- `Urls.ParseUrl` is a simplified `parse_url`. It does not report `false` for malformed URLs (a port that is too long or not a number after "//", an empty host after "//"), does not decode ports, does not lowercase hosts and does not treat bracketed IPv6 hosts specially. `getHost()` is taken to be the request's host as given.
- `LoginFlow.SanitizeTarget`: it reads hosts through `Urls.ParseUrl`, so it shares that function's gaps: a target that `parse_url` rejects with `false` but `ParseUrl` reads after "//" as naming a host is cut to "/" or to its path, where the code roots the whole target. The scheme-less "host:port" case and the port cut at the last ':' are modelled.
- `LoginFlow.SanitizeTargetAsWritten`: it reads hosts through the same `Urls.ParseUrl`, so it shares the gap of the line above.
- `UserInfo.ApplyUserInfo`: a claim that is not a string is stored as its text. In PHP, assigning such a value can fail in other ways.
- `UserInfo.UserInfoService.UpdateUserFromUserInfo`: when the save fails, the store is unchanged. The in-memory PHP object the caller holds keeps the assigned fields, and that is not modelled.
- Concurrency, such as two callbacks racing between lookup and create, is outside a sequential model.
- `LoginFlow.FallbackAuthorizeQuery`: the scope value is stated as `UrlEncode("openid profile email")`. Its literal spelling is not stated.
- Framework registration is not modelled. This covers `register`, `boot`, `registerSettings`, the user model and controller extensions, and the Socialite provider registration.
- The CMS login component, the migrations and seeders, and `RhythmTokenExchange` are not part of this model.
- `Routes.CallbackRoute`: the exception trace is an input string. It is not derived from the call stack.
- `LoginFlow.HandleCallback`: it uses the corrected `SanitizeTarget`, which roots the target "0"; the code as written does not (see Findings).
- `Routes.CallbackRoute`: it calls the corrected `HandleCallback`, so it inherits the corrected sanitiser.
- `LoginFlow.Logout`: it normalises the domain as the rest of the plugin does; the code as written puts the stored domain after "https://" unchanged (see Findings).
- `Routes.LogoutRoute`: it redirects to the corrected `Logout`.
- `Users.FindByAuth0Id` and `Users.FindByEmail`: `->first()` without an `ORDER BY` is modelled as the first match in store order. The database may return another.
- `Users.FindByAuth0Id`: the subject is a string, so an identity without a `sub` is not modelled. For such an identity the query builder would turn `where('auth0_id', null)` into `whereNull` and match the first user never linked to Auth0. A provider following OpenID Connect always sends `sub`.
- A decoded JSON list is not modelled, so `getUserInfo()` and `extractRhythmData()` on a top-level list, which PHP treats as an array, are not captured.
- Header names are matched without regard to case, as the framework does; the model keys the request's headers by their lower-cased names.

=== FILE: http.dfy ===
/**
 * The framework side of a request: the incoming request as a value, the
 * responses a route can give, and the session store with the signed-in
 * user, which the login flow changes in place.
 */
module Http {
  import opened Wrappers
  import opened Php
  import opened Urls

  /**
   * An incoming request. `host` is the host name without port, `headers`
   * maps a header name, lower-cased as the framework's header bag keys it
   * (so look-ups ignore case), to its first value, `input` holds the query
   * and form parameters, `hasSession` says whether a session is attached.
   */
  datatype Request = Request(
    secure: bool,
    host: string,
    port: nat,
    headers: map<string, string>,
    input: map<string, string>,
    ip: string,
    hasSession: bool)

  function Scheme(r: Request): string {
    if r.secure then "https" else "http"
  }

  /** The ":port" suffix of the HTTP host: empty on the scheme's default port. */
  function PortSuffix(r: Request): (p: string)
    ensures p == "" || (p[0] == ':' && forall i :: 1 <= i < |p| ==> '0' <= p[i] <= '9')
  {
    if (r.secure && r.port == 443) || (!r.secure && r.port == 80) then ""
    else ":" + NatToString(r.port)
  }

  /** `getHttpHost()`: the host, with the port when it is not the scheme's default. */
  function HttpHost(r: Request): string {
    r.host + PortSuffix(r)
  }

  /** `getSchemeAndHttpHost()`. */
  function SchemeAndHttpHost(r: Request): string {
    Scheme(r) + "://" + HttpHost(r)
  }

  /** `input($key, $default)`. */
  function Input(r: Request, key: string, default: string): string {
    if key in r.input then r.input[key] else default
  }

  /**
   * Whatever nothing or path starting with '/' follows the request's own
   * scheme and host, the URL names the request's host.
   */
  lemma OwnOriginKeepsHost(r: Request, path: string)
    requires HostName(r.host)
    requires path == "" || path[0] == '/'
    ensures ParseUrl(SchemeAndHttpHost(r) + path).host == Some(r.host)
  {
    var s := Scheme(r) + "://" + r.host + PortSuffix(r) + path;
    assert SchemeAndHttpHost(r) + path == s;
    assert ParseUrl(s).host == Some(r.host) by {
      var scheme := Scheme(r);
      assert scheme == "http" || scheme == "https";
      ParseOrigin(scheme, r.host, PortSuffix(r), path);
    }
  }

  /** What a route hands back to the framework. */
  datatype Response =
    | Redirect(location: string)
    | Page(status: nat, body: string)
    | JsonReply(code: nat, payload: Json)
    | Raised(message: string)   // an exception leaving the route, rendered by the framework

  /**
   * The session store (string keys and values) together with the
   * authentication guard's signed-in user.
   */
  class Session {
    var data: map<string, string>
    var user: Option<nat>

    constructor (data0: map<string, string>, user0: Option<nat>)
      ensures data == data0 && user == user0
    {
      data := data0;
      user := user0;
    }

    predicate Has(key: string)
      reads this
    {
      key in data
    }

    /** `Session::put()`. */
    method Put(key: string, value: string)
      modifies this
      ensures data == old(data)[key := value]
      ensures user == old(user)
    {
      data := data[key := value];
    }

    /** `Session::pull()`: the stored value, or the default, and the key removed. */
    method Pull(key: string, default: string) returns (value: string)
      modifies this
      ensures value == if key in old(data) then old(data)[key] else default
      ensures data == old(data) - {key}
      ensures user == old(user)
    {
      value := if key in data then data[key] else default;
      data := data - {key};
    }

    /** `Session::forget()`. */
    method Forget(key: string)
      modifies this
      ensures data == old(data) - {key}
      ensures user == old(user)
    {
      data := data - {key};
    }

    /** `Auth::login()`. */
    method Login(id: nat)
      modifies this
      ensures user == Some(id)
      ensures data == old(data)
    {
      user := Some(id);
    }

    /** `Auth::logout()`. */
    method Logout()
      modifies this
      ensures user == None
      ensures data == old(data)
    {
      user := None;
    }
  }
}

=== FILE: loginflow.dfy ===
/**
 * The login bridge itself (classes/Auth0Provider.php): sending the visitor
 * to the Auth0 authorization endpoint, checking the callback, resolving and
 * signing in the local user, choosing the page to return to, and building
 * the Auth0 logout URL. The Socialite driver is an oracle: the caller
 * passes in what it answers.
 */
module LoginFlow {
  import opened Wrappers
  import opened Php
  import opened Urls
  import opened Settings
  import opened Http
  import opened Users

  /** The authentication exceptions the provider raises. */
  datatype AuthError =
    | NotConfigured
    | ProviderError(error: string, description: string)
    | MissingCode
    | MissingState
    | ApiError(response: Option<(int, string)>)
    | ExchangeFailed(message: string, cls: string, file: string, line: int)
    | AutoCreateDisabled

  // The fixed exception texts.
  const NotConfiguredText := "Auth0 is not properly configured"
  const MissingCodeText := "No authorization code received from Auth0"
  const MissingStateText := "No state parameter received from Auth0. This might indicate a CSRF issue."
  const AutoCreateDisabledText := "User does not exist and auto-creation is disabled"

  /**
   * The message each exception carries: a fixed text for the configuration,
   * code, state and auto-create failures; the provider's error and its
   * description; the API status ("Unknown" without a response) and body;
   * an exchange failure's own message, or its class, file and line when that
   * message is `empty()`.
   */
  function Message(e: AuthError): (m: string)
    ensures e.NotConfigured? ==> m == NotConfiguredText
    ensures e.MissingCode? ==> m == MissingCodeText
    ensures e.MissingState? ==> m == MissingStateText
    ensures e.AutoCreateDisabled? ==> m == AutoCreateDisabledText
    ensures e.ProviderError? ==> m == "Auth0 Error: " + e.error + " - " + e.description
    ensures e.ApiError? ==>
      m == "Auth0 API Error (" + (if e.response.Some? then IntToString(e.response.value.0) else "Unknown") + "): "
           + (if e.response.Some? then e.response.value.1 else "No response body")
    ensures e.ExchangeFailed? ==>
      m == "Failed to authenticate with Auth0: "
           + (if Empty(e.message) then "Unknown error - Class: " + e.cls + " at " + e.file + ":" + IntToString(e.line) else e.message)
  {
    match e
    case NotConfigured => NotConfiguredText
    case ProviderError(error, description) => "Auth0 Error: " + error + " - " + description
    case MissingCode => MissingCodeText
    case MissingState => MissingStateText
    case ApiError(response) =>
      var status := if response.Some? then IntToString(response.value.0) else "Unknown";
      var body := if response.Some? then response.value.1 else "No response body";
      "Auth0 API Error (" + status + "): " + body
    case ExchangeFailed(message, cls, file, line) =>
      var detail := if Empty(message) then "Unknown error - Class: " + cls + " at " + file + ":" + IntToString(line) else message;
      "Failed to authenticate with Auth0: " + detail
    case AutoCreateDisabled => AutoCreateDisabledText
  }

  // ---------------------------------------------------------------------------
  // Driver configuration

  /** The `services.auth0` configuration handed to the Socialite driver. */
  datatype SocialiteConfig = SocialiteConfig(baseUrl: string, clientId: string, clientSecret: string, redirect: string)

  /** The proxy headers `getCallbackUrl()` reads, as the request keys them. */
  const ForwardedProto := "x-forwarded-proto"
  const ForwardedHost := "x-forwarded-host"

  /** The request arrived over https, or a proxy says it did. */
  predicate ViaHttps(req: Request) {
    req.secure || (ForwardedProto in req.headers && req.headers[ForwardedProto] == "https")
  }

  /**
   * `getCallbackUrl()`: the stored callback URL, trimmed, when it is not
   * empty; otherwise the request's own scheme (or a forwarded "https") and
   * host (or the forwarded host) followed by "/auth0/callback".
   */
  function CallbackUrl(cfg: Config, req: Request): (r: string)
    ensures !Empty(Trim(cfg.callbackUrl)) ==> r == Trim(cfg.callbackUrl)
    ensures Empty(Trim(cfg.callbackUrl)) ==>
      r == (if ViaHttps(req) then "https" else "http") + "://"
           + (if ForwardedHost in req.headers then req.headers[ForwardedHost] else HttpHost(req))
           + "/auth0/callback"
  {
    var configured := Trim(cfg.callbackUrl);
    if !Empty(configured) then configured
    else
      var forwardedHttps := ForwardedProto in req.headers && req.headers[ForwardedProto] == "https";
      var scheme := if req.secure || forwardedHttps then "https" else "http";
      var host := if ForwardedHost in req.headers then req.headers[ForwardedHost] else HttpHost(req);
      scheme + "://" + host + "/auth0/callback"
  }

  /** Behind a proxy that forwards its host, with no callback URL stored, the callback names the forwarded host, over https when the proxy says so. */
  lemma CallbackUrlBehindProxy(cfg: Config, req: Request, h: string)
    requires Empty(Trim(cfg.callbackUrl))
    requires ForwardedHost in req.headers && req.headers[ForwardedHost] == h && HostName(h)
    ensures ParseUrl(CallbackUrl(cfg, req)).host == Some(h)
    ensures CallbackUrl(cfg, req) == (if ViaHttps(req) then "https://" else "http://") + h + "/auth0/callback"
  {
    var scheme := if ViaHttps(req) then "https" else "http";
    var origin := scheme + "://" + h;
    assert CallbackUrl(cfg, req) == origin + "/auth0/callback";
    assert origin + "" == origin;
    ParseOrigin(scheme, h, "", "/auth0/callback");
    SchemeJoin(scheme, h);
  }

  /** Behind no proxy and with no callback URL stored, the callback is on the request's own host. */
  lemma CallbackUrlOwnHost(cfg: Config, req: Request)
    requires Empty(Trim(cfg.callbackUrl))
    requires ForwardedProto !in req.headers && ForwardedHost !in req.headers
    requires HostName(req.host)
    ensures ParseUrl(CallbackUrl(cfg, req)).host == Some(req.host)
  {
    assert CallbackUrl(cfg, req) == SchemeAndHttpHost(req) + "/auth0/callback";
    OwnOriginKeepsHost(req, "/auth0/callback");
  }

  /** `setAuth0Config()`: the stored domain with "https://" added when it names no scheme (not trimmed), the credentials, the callback URL. */
  function DriverConfig(cfg: Config, req: Request): (s: SocialiteConfig)
    ensures HasHttpScheme(s.baseUrl)
    ensures HasHttpScheme(cfg.domain) ==> s.baseUrl == cfg.domain
    ensures !HasHttpScheme(cfg.domain) ==> s.baseUrl == "https://" + cfg.domain
    ensures s.clientId == cfg.clientId && s.clientSecret == cfg.clientSecret
    ensures s.redirect == CallbackUrl(cfg, req)
  {
    SocialiteConfig(WithHttps(cfg.domain), cfg.clientId, cfg.clientSecret, CallbackUrl(cfg, req))
  }

  // ---------------------------------------------------------------------------
  // Redirect to Auth0

  /**
   * The session after the intended page is stashed: a stored `url.intended`
   * is pulled into `auth0_intended`; else an explicit `redirect` parameter
   * is stored; else an existing `auth0_intended` stays; else "/".
   */
  function StashIntended(data: map<string, string>, input: map<string, string>): (d: map<string, string>)
    ensures "auth0_intended" in d
    ensures "url.intended" !in d
    ensures "url.intended" in data ==> d["auth0_intended"] == data["url.intended"]
    ensures "url.intended" !in data && "redirect" in input ==> d["auth0_intended"] == input["redirect"]
    ensures "url.intended" !in data && "redirect" !in input ==>
      d["auth0_intended"] == if "auth0_intended" in data then data["auth0_intended"] else "/"
    ensures forall k :: k in data && k != "url.intended" && k != "auth0_intended" ==> k in d && d[k] == data[k]
    ensures forall k :: k in d ==> k in data || k == "auth0_intended"
  {
    if "url.intended" in data then (data - {"url.intended"})["auth0_intended" := data["url.intended"]]
    else if "redirect" in input then data["auth0_intended" := input["redirect"]]
    else if "auth0_intended" in data then data
    else data["auth0_intended" := "/"]
  }

  /** Stashing twice with the same input changes nothing more: the first stash is kept when no new source appears. */
  lemma StashIntendedIdempotent(data: map<string, string>, input: map<string, string>)
    requires "redirect" !in input
    ensures StashIntended(StashIntended(data, input), input) == StashIntended(data, input)
  {
  }

  /** The `redirect_uri` of the fallback authorization request: the stored callback URL, else the application's callback route. */
  function RedirectUri(cfg: Config, appRoot: string): string {
    if Empty(cfg.callbackUrl) then UrlTo(appRoot, "/auth0/callback") else cfg.callbackUrl
  }

  /** The parameters of the fallback authorization request. */
  function AuthorizeParams(clientId: string, redirectUri: string): seq<(string, string)> {
    [("client_id", clientId),
     ("redirect_uri", redirectUri),
     ("response_type", "code"),
     ("scope", "openid profile email")]
  }

  /** `http_build_query()` of the fallback parameters. */
  function AuthorizeQuery(clientId: string, redirectUri: string): string {
    BuildQuery(AuthorizeParams(clientId, redirectUri))
  }

  /** The authorization URL built by hand when the driver fails: the normalised domain, "/authorize?" and the query. */
  function FallbackAuthorizeUrl(cfg: Config, appRoot: string): (u: string)
    ensures HasHttpScheme(u)
  {
    var d := NormalizedDomain(cfg.domain);
    var q := AuthorizeQuery(cfg.clientId, RedirectUri(cfg, appRoot));
    HasHttpSchemeAppend(d, "/authorize?" + q);
    d + ("/authorize?" + q)
  }

  /**
   * For a tenant stored bare or with an http(s) scheme, the hand-built URL
   * reads back as the tenant's host, the path "/authorize", the built query
   * and no fragment.
   */
  lemma FallbackAuthorizeParts(cfg: Config, appRoot: string, h: string)
    requires HostName(h) && h != ""
    requires cfg.domain == h || cfg.domain == "https://" + h || cfg.domain == "http://" + h
    ensures ParseUrl(FallbackAuthorizeUrl(cfg, appRoot)) ==
      UrlParts(Some(h), Some("/authorize"), Some(AuthorizeQuery(cfg.clientId, RedirectUri(cfg, appRoot))), None)
  {
    var q := AuthorizeQuery(cfg.clientId, RedirectUri(cfg, appRoot));
    BuildQueryNoHash(AuthorizeParams(cfg.clientId, RedirectUri(cfg, appRoot)));
    var scheme := TenantScheme(cfg.domain, h);
    var origin := scheme + "://" + h;
    assert FallbackAuthorizeUrl(cfg, appRoot) == origin + ("/authorize?" + q);
    AuthorizeUrlJoin(origin, q);
    AuthorizePathPlain();
    ParseFullUrl(scheme, h, "/authorize", q, None);
  }

  /** The authorize path holds neither a '?' nor a '#'. */
  lemma AuthorizePathPlain()
    ensures '?' !in "/authorize" && '#' !in "/authorize"
  {
    var p := "/authorize";
    assert forall i :: 0 <= i < |p| ==> p[i] != '?' && p[i] != '#';
  }

  /** The scheme a tenant stored bare or with an http(s) scheme is reached by. */
  lemma TenantScheme(d: string, h: string) returns (scheme: string)
    requires HostName(h) && h != ""
    requires d == h || d == "https://" + h || d == "http://" + h
    ensures scheme == "http" || scheme == "https"
    ensures NormalizedDomain(d) == scheme + "://" + h
  {
    PlainHostName(h);
    NormalizedHost(h);
    scheme := if d == "http://" + h then "http" else "https";
    SchemeJoin(scheme, h);
  }

  /** The origin, "/authorize?" and the query, read as the origin, path, '?' and query with no fragment. */
  lemma AuthorizeUrlJoin(d: string, q: string)
    ensures d + ("/authorize?" + q) == d + "/authorize" + "?" + q + ""
  {
    assert "/authorize?" == "/authorize" + "?";
    assert d + "/authorize" + "?" + q + "" == d + ("/authorize" + "?" + q);
  }

  /** A word of unreserved characters is its own encoding. */
  lemma UrlEncodeKeeps(s: string)
    requires forall i :: 0 <= i < |s| ==> Unreserved(s[i] as int)
    ensures UrlEncode(s) == s
  {
    UrlEncodePlain(s);
  }

  /**
   * The fallback query holds exactly four parameters, in order: the client
   * id, the redirect URI, "response_type=code" and the three scopes; in
   * particular it carries no `state` parameter.
   */
  lemma FallbackAuthorizeQuery(clientId: string, redirectUri: string)
    ensures SplitQuery(AuthorizeQuery(clientId, redirectUri)) ==
      [("client_id", UrlEncode(clientId)),
       ("redirect_uri", UrlEncode(redirectUri)),
       ("response_type", "code"),
       ("scope", UrlEncode("openid profile email"))]
  {
    FourPairQuery(("client_id", clientId), ("redirect_uri", redirectUri),
                  ("response_type", "code"), ("scope", "openid profile email"));
    ClientIdPlain();
    RedirectUriPlain();
    ResponseTypePlain();
    CodePlain();
    ScopePlain();
  }

  // Helpers of `FallbackAuthorizeQuery` and `LogoutQueryBuilt`: the parameter
  // names and the response type are their own encodings. They are facts about
  // literals, not properties of the plugin, and each stays a lemma of its own
  // so that the solver unrolls `UrlEncode` on one literal at a time.

  lemma ClientIdPlain() ensures UrlEncode("client_id") == "client_id" {
    var s := "client_id";
    assert forall i :: 0 <= i < |s| ==> Unreserved(s[i] as int);
    UrlEncodeKeeps(s);
  }

  lemma RedirectUriPlain() ensures UrlEncode("redirect_uri") == "redirect_uri" {
    var s := "redirect_uri";
    assert forall i :: 0 <= i < |s| ==> Unreserved(s[i] as int);
    UrlEncodeKeeps(s);
  }

  lemma ResponseTypePlain() ensures UrlEncode("response_type") == "response_type" {
    var s := "response_type";
    assert forall i :: 0 <= i < |s| ==> Unreserved(s[i] as int);
    UrlEncodeKeeps(s);
  }

  lemma CodePlain() ensures UrlEncode("code") == "code" {
    var s := "code";
    assert forall i :: 0 <= i < |s| ==> Unreserved(s[i] as int);
    UrlEncodeKeeps(s);
  }

  lemma ScopePlain() ensures UrlEncode("scope") == "scope" {
    var s := "scope";
    assert forall i :: 0 <= i < |s| ==> Unreserved(s[i] as int);
    UrlEncodeKeeps(s);
  }

  /** A query of four parameters reads back as their four encoded pairs. */
  lemma FourPairQuery(a: (string, string), b: (string, string), c: (string, string), d: (string, string))
    ensures SplitQuery(BuildQuery([a, b, c, d])) ==
      [(UrlEncode(a.0), UrlEncode(a.1)), (UrlEncode(b.0), UrlEncode(b.1)),
       (UrlEncode(c.0), UrlEncode(c.1)), (UrlEncode(d.0), UrlEncode(d.1))]
  {
    var s3: seq<(string, string)> := [d];
    var s2 := [c] + s3;
    var s1 := [b] + s2;
    var s0 := [a] + s1;
    var ea, eb, ec, ed := (UrlEncode(a.0), UrlEncode(a.1)), (UrlEncode(b.0), UrlEncode(b.1)),
                          (UrlEncode(c.0), UrlEncode(c.1)), (UrlEncode(d.0), UrlEncode(d.1));
    QueryHead(d, []);
    assert [d] + [] == s3;
    var q3 := SplitQuery(BuildQuery(s3));
    assert q3 == [ed];
    QueryHead(c, s3);
    var q2 := SplitQuery(BuildQuery(s2));
    assert q2 == [ec] + q3;
    QueryHead(b, s2);
    var q1 := SplitQuery(BuildQuery(s1));
    assert q1 == [eb] + q2;
    QueryHead(a, s1);
    var q0 := SplitQuery(BuildQuery(s0));
    assert q0 == [ea] + q1;
    ConsFour(ea, eb, ec, ed);
    ConsFour(a, b, c, d);
  }

  /** Four one-element sequences joined from the right are the four-element sequence. */
  lemma ConsFour<T>(x0: T, x1: T, x2: T, x3: T)
    ensures [x0] + ([x1] + ([x2] + [x3])) == [x0, x1, x2, x3]
  {
  }

  /** Where `redirectToAuth0()` sends the visitor: the driver's URL, or the fallback URL when the driver throws. */
  function AuthorizeTarget(cfg: Config, req: Request, appRoot: string, driver: (SocialiteConfig, bool) -> Result<string, string>): string {
    match driver(DriverConfig(cfg, req), cfg.statelessMode)
    case Success(url) => url
    case Failure(_) => FallbackAuthorizeUrl(cfg, appRoot)
  }

  /**
   * `redirectToAuth0()`. Fails when the plugin is not configured, touching
   * nothing; otherwise stashes the intended page when the request has a
   * session and answers the authorization URL. `driver(config, stateless)`
   * is the Socialite driver's redirect.
   */
  method RedirectToAuth0(cfg: Config, req: Request, session: Session, appRoot: string,
                         driver: (SocialiteConfig, bool) -> Result<string, string>)
    returns (r: Result<string, AuthError>)
    modifies session
    ensures !IsConfigured(cfg) ==> r == Failure(NotConfigured) && session.data == old(session.data)
    ensures IsConfigured(cfg) ==> r == Success(AuthorizeTarget(cfg, req, appRoot, driver))
    ensures IsConfigured(cfg) && req.hasSession ==> session.data == StashIntended(old(session.data), req.input)
    ensures !req.hasSession ==> session.data == old(session.data)
    ensures session.user == old(session.user)
  {
    if !IsConfigured(cfg) {
      return Failure(NotConfigured);
    }
    var config := DriverConfig(cfg, req);
    if req.hasSession {
      var intended := "/";
      if session.Has("url.intended") {
        intended := session.Pull("url.intended", "");
      } else if "redirect" in req.input {
        intended := Input(req, "redirect", "");
      } else if session.Has("auth0_intended") {
        intended := session.data["auth0_intended"];
      }
      session.Put("auth0_intended", intended);
    }
    var redirect := driver(config, cfg.statelessMode);
    if redirect.Success? {
      return Success(redirect.value);
    }
    r := Success(FallbackAuthorizeUrl(cfg, appRoot));
  }

  /**
   * `handleBeforeAuthenticate()`: only credentials whose "auth0" entry is
   * the boolean true start the Auth0 login; any other sign-in goes on
   * untouched.
   */
  method HandleBeforeAuthenticate(credentials: map<string, Json>, cfg: Config, req: Request, session: Session, appRoot: string,
                                  driver: (SocialiteConfig, bool) -> Result<string, string>)
    returns (r: Option<Result<string, AuthError>>)
    modifies session
    ensures r.Some? <==> "auth0" in credentials && credentials["auth0"] == JBool(true)
    ensures r.None? ==> session.data == old(session.data)
    ensures r.Some? && IsConfigured(cfg) ==> r.value == Success(AuthorizeTarget(cfg, req, appRoot, driver))
    ensures r.Some? && !IsConfigured(cfg) ==> r.value == Failure(NotConfigured)
    ensures session.user == old(session.user)
  {
    if "auth0" in credentials && Truthy(credentials["auth0"]) && credentials["auth0"] == JBool(true) {
      var res := RedirectToAuth0(cfg, req, session, appRoot, driver);
      return Some(res);
    }
    r := None;
  }

  // ---------------------------------------------------------------------------
  // Callback

  /** The checks `handleCallback()` makes before the code exchange, in order. */
  function CallbackGuard(cfg: Config, req: Request): (g: Option<AuthError>)
    ensures g.None? <==>
      IsConfigured(cfg) && "error" !in req.input && !Empty(Input(req, "code", "")) && !Empty(Input(req, "state", ""))
    ensures g == Some(NotConfigured) <==> !IsConfigured(cfg)
    ensures IsConfigured(cfg) && "error" in req.input ==>
      g == Some(ProviderError(req.input["error"], Input(req, "error_description", "Unknown error")))
    ensures IsConfigured(cfg) && "error" !in req.input && Empty(Input(req, "code", "")) ==> g == Some(MissingCode)
    ensures IsConfigured(cfg) && "error" !in req.input && !Empty(Input(req, "code", "")) && Empty(Input(req, "state", "")) ==>
      g == Some(MissingState)
  {
    if !IsConfigured(cfg) then Some(NotConfigured)
    else if "error" in req.input then
      Some(ProviderError(req.input["error"], Input(req, "error_description", "Unknown error")))
    else if Empty(Input(req, "code", "")) then Some(MissingCode)
    else if Empty(Input(req, "state", "")) then Some(MissingState)
    else None
  }

  /** What the driver's code exchange gives: the Auth0 user, an HTTP client error, or another exception. */
  datatype ExchangeOutcome =
    | Authenticated(claims: Claims)
    | ClientError(response: Option<(int, string)>)
    | OtherError(message: string, cls: string, file: string, line: int)

  /** The authentication exception a failed exchange becomes. */
  function ExchangeError(o: ExchangeOutcome): (e: Option<AuthError>)
    ensures e.None? <==> o.Authenticated?
    ensures o.ClientError? ==> e == Some(ApiError(o.response))
    ensures o.OtherError? ==> e == Some(ExchangeFailed(o.message, o.cls, o.file, o.line))
  {
    match o
    case Authenticated(_) => None
    case ClientError(response) => Some(ApiError(response))
    case OtherError(message, cls, file, line) => Some(ExchangeFailed(message, cls, file, line))
  }

  /** The page to return to after sign-in: `auth0_intended`, else `url.intended`, else "/"; "/" without a session. */
  function ReturnTarget(data: map<string, string>, hasSession: bool): (r: string)
    ensures !hasSession ==> r == "/"
    ensures hasSession && "auth0_intended" in data ==> r == data["auth0_intended"]
    ensures hasSession && "auth0_intended" !in data ==> r == if "url.intended" in data then data["url.intended"] else "/"
    ensures r == "/" || r in data.Values
  {
    if !hasSession then "/"
    else if "auth0_intended" in data then data["auth0_intended"]
    else if "url.intended" in data then data["url.intended"]
    else "/"
  }

  /**
   * The target after the host check of `handleCallback()`: a non-empty
   * target other than "/" that names a host is cut down to its path, query
   * and fragment when the host is the request's, and replaced by "/" when
   * it is another.
   */
  function OnHostTarget(t: string, host: string): string {
    if !Empty(t) && t != "/" then
      var u := ParseUrl(t);
      if u.host.None? then t
      else if u.host.value != host then "/"
      else
        (if u.path.Some? then u.path.value else "/")
        + (if u.query.Some? then "?" + u.query.value else "")
        + (if u.fragment.Some? then "#" + u.fragment.value else "")
    else t
  }

  /** The target as written: a leading '/' is added only to a target that is not `empty()`, so "0" is left as it is. */
  function SanitizeTargetAsWritten(t: string, host: string): (r: string)
    ensures t == "0" ==> r == "0" && SanitizeTarget(t, host) == "/0"
    ensures t != "0" ==> r == SanitizeTarget(t, host)
  {
    var i := OnHostTarget(t, host);
    if !Empty(i) && i[0] != '/' then "/" + i else i
  }

  /** The page "0" is appended to the base URL unchanged, which moves the redirect to the host "mysite.com0". */
  lemma SanitizeAsWrittenLeavesHost()
    ensures SanitizeTargetAsWritten("0", "mysite.com") == "0"
    ensures ParseUrl(SchemeAndHttpHost(Request(true, "mysite.com", 443, map[], map[], "", true)) + "0").host
         == Some("mysite.com0")
  {
    var req := Request(true, "mysite.com", 443, map[], map[], "", true);
    assert SchemeAndHttpHost(req) + "0" == "https" + "://" + "mysite.com0" + "" + "";
    ParseOrigin("https", "mysite.com0", "", "");
  }

  /**
   * The redirect target of `handleCallback()`, with the leading '/' added to
   * every non-empty target: foreign hosts become "/", the request's own
   * host is dropped, a relative target is kept and rooted.
   */
  function SanitizeTarget(t: string, host: string): (r: string)
    ensures r == "" || r[0] == '/'
    ensures t != "" && ParseUrl(t).host.Some? && ParseUrl(t).host.value != host ==> r == "/"
    ensures t != "" && ParseUrl(t).host.None? ==> r == if t[0] == '/' then t else "/" + t
    ensures ParseUrl(t).host == Some(host) ==>
      r == (if ParseUrl(t).path.Some? then ParseUrl(t).path.value else "/")
           + (if ParseUrl(t).query.Some? then "?" + ParseUrl(t).query.value else "")
           + (if ParseUrl(t).fragment.Some? then "#" + ParseUrl(t).fragment.value else "")
  {
    assert ParseUrl(t).host.Some? ==> |t| >= 2 by {
      if ParseUrl(t).host.Some? { HostNeedsAuthority(t); }
    }
    var i := OnHostTarget(t, host);
    if i != "" && i[0] != '/' then "/" + i else i
  }

  /** A full URL on the site's own host keeps its path, query and fragment. */
  lemma SanitizeOwnUrl(scheme: string, host: string, path: string, query: string, fragment: string)
    requires scheme == "http" || scheme == "https"
    requires HostName(host)
    requires path != [] && path[0] == '/' && '?' !in path && '#' !in path
    requires '#' !in query
    ensures SanitizeTarget(scheme + "://" + host + path + "?" + query + "#" + fragment, host)
         == path + "?" + query + "#" + fragment
  {
    ParseFullUrl(scheme, host, path, query, Some(fragment));
    AppendAssoc(scheme + "://" + host + path + "?" + query, "#", fragment);
    AppendAssoc(path, "?", query);
    AppendAssoc(path + "?" + query, "#", fragment);
  }

  /**
   * A target written as a scheme-less host ":" port, with or without a path,
   * names that host: another host gives "/", and the site's own host is cut
   * down to the path.
   */
  lemma SanitizeHostPort(host: string, port: string, path: string, own: string)
    requires host != [] && forall j :: 0 <= j < |host| ==> SchemeChar(host[j])
    requires 1 <= |port| <= 5 && forall j :: 0 <= j < |port| ==> DecimalChar(port[j])
    requires DecimalValue(port) <= 65535
    requires path == "" || (path[0] == '/' && '?' !in path && '#' !in path)
    ensures host != own ==> SanitizeTarget(host + ":" + port + path, own) == "/"
    ensures host == own ==> SanitizeTarget(host + ":" + port + path, own) == if path == "" then "/" else path
  {
    ParseHostPort(host, port, path);
  }

  /** Whatever page was stored, the redirect after sign-in stays on the request's host. */
  lemma CallbackStaysOnHost(t: string, req: Request)
    requires HostName(req.host)
    ensures ParseUrl(SchemeAndHttpHost(req) + SanitizeTarget(t, req.host)).host == Some(req.host)
  {
    OwnOriginKeepsHost(req, SanitizeTarget(t, req.host));
  }

  /**
   * `handleCallback()`. The guards fail first, touching nothing; a failed
   * exchange fails the same way; otherwise the user is found or created in
   * the store, signed in, the intended-page keys are pulled from the
   * session, and the answer is the request's own origin followed by the
   * sanitised target. The plugin's own comparison of the stored and the
   * requested "state" rejects nothing; the driver's check of the state in
   * non-stateless mode is part of the exchange outcome.
   */
  method HandleCallback(cfg: Config, req: Request, session: Session, store: UserStore, exchange: ExchangeOutcome, env: Env)
    returns (r: Result<string, AuthError>)
    modifies session, store
    ensures CallbackGuard(cfg, req).Some? ==>
      r == Failure(CallbackGuard(cfg, req).value) &&
      session.data == old(session.data) && session.user == old(session.user) && store.users == old(store.users)
    ensures CallbackGuard(cfg, req).None? && ExchangeError(exchange).Some? ==>
      r == Failure(ExchangeError(exchange).value) &&
      session.data == old(session.data) && session.user == old(session.user) && store.users == old(store.users)
    ensures CallbackGuard(cfg, req).None? && exchange.Authenticated? ==>
      var res := Resolve(old(store.users), exchange.claims, cfg, env);
      store.users == res.users &&
      (res.user.None? ==>
        r == Failure(AutoCreateDisabled) && session.data == old(session.data) && session.user == old(session.user)) &&
      (res.user.Some? ==>
        session.user == res.user &&
        session.data == (if req.hasSession then old(session.data) - {"url.intended", "auth0_intended"} else old(session.data)) &&
        r == Success(SchemeAndHttpHost(req) + SanitizeTarget(ReturnTarget(old(session.data), req.hasSession), req.host)))
  {
    var guard := CallbackGuard(cfg, req);
    if guard.Some? {
      return Failure(guard.value);
    }
    if !exchange.Authenticated? {
      return Failure(ExchangeError(exchange).value);
    }
    var found := store.FindOrCreateUser(exchange.claims, cfg, env);
    if found.None? {
      return Failure(AutoCreateDisabled);
    }
    session.Login(found.value);
    var intended := PullReturnTarget(session, req.hasSession);
    intended := SanitizeTarget(intended, req.host);
    r := Success(SchemeAndHttpHost(req) + intended);
  }

  /**
   * `Session::pull('auth0_intended', Session::pull('url.intended', '/'))`
   * when the request has a session: the inner pull runs first, so both keys
   * are removed whichever one supplies the target.
   */
  method PullReturnTarget(session: Session, hasSession: bool) returns (intended: string)
    modifies session
    ensures intended == ReturnTarget(old(session.data), hasSession)
    ensures session.data == if hasSession then old(session.data) - {"url.intended", "auth0_intended"} else old(session.data)
    ensures session.user == old(session.user)
  {
    intended := "/";
    if hasSession {
      var fallback := session.Pull("url.intended", "/");
      intended := session.Pull("auth0_intended", fallback);
      assert session.data == old(session.data) - {"url.intended", "auth0_intended"};
    }
  }

  // ---------------------------------------------------------------------------
  // Logout

  /** Where Auth0 sends the visitor back after logout: the stored logout URL, else the request's origin and "/". */
  function LogoutReturnUrl(cfg: Config, req: Request): (r: string)
    ensures !Empty(cfg.logoutUrl) ==> r == cfg.logoutUrl
  {
    if Empty(cfg.logoutUrl) then SchemeAndHttpHost(req) + "/" else cfg.logoutUrl
  }

  /** Without a stored logout URL, the visitor is sent back to the request's own host. */
  lemma LogoutReturnsHome(cfg: Config, req: Request)
    requires Empty(cfg.logoutUrl) && HostName(req.host)
    ensures ParseUrl(LogoutReturnUrl(cfg, req)).host == Some(req.host)
  {
    OwnOriginKeepsHost(req, "/");
  }

  /**
   * The query of the Auth0 logout URL: the client id as stored and the
   * encoded return URL. For a client id of unreserved characters it is what
   * `http_build_query()` writes for the two pairs, so it reads back as
   * exactly those two parameters.
   */
  function LogoutQuery(cfg: Config, req: Request): string {
    "client_id=" + cfg.clientId + "&returnTo=" + UrlEncode(LogoutReturnUrl(cfg, req))
  }

  /** For a client id of unreserved characters the logout query is `http_build_query()` of the two pairs. */
  lemma LogoutQueryIsBuilt(cfg: Config, req: Request)
    requires forall i :: 0 <= i < |cfg.clientId| ==> Unreserved(cfg.clientId[i] as int)
    ensures LogoutQuery(cfg, req) == BuildQuery([("client_id", cfg.clientId), ("returnTo", LogoutReturnUrl(cfg, req))])
  {
    LogoutQueryBuilt(cfg.clientId, LogoutReturnUrl(cfg, req));
  }

  /** For an unreserved client id, the hand-written logout query is what `http_build_query()` writes. */
  lemma LogoutQueryBuilt(clientId: string, ret: string)
    requires forall i :: 0 <= i < |clientId| ==> Unreserved(clientId[i] as int)
    ensures BuildQuery([("client_id", clientId), ("returnTo", ret)]) == "client_id=" + clientId + "&returnTo=" + UrlEncode(ret)
  {
    var params := [("client_id", clientId), ("returnTo", ret)];
    UrlEncodeKeeps(clientId);
    ClientIdPlain();
    ReturnToPlain();
    assert BuildQuery(params[1..]) == QueryPair(("returnTo", ret));
    assert BuildQuery(params) == QueryPair(params[0]) + "&" + QueryPair(("returnTo", ret));
    LogoutQueryJoin(clientId, UrlEncode(ret));
  }

  /** The logout query written in one piece is the two `key=value` pairs joined by '&'. */
  lemma LogoutQueryJoin(a: string, b: string)
    ensures "client_id=" + a + "&returnTo=" + b == ("client_id" + "=" + a) + "&" + ("returnTo" + "=" + b)
  {
    assert "client_id=" == "client_id" + "=";
    assert "&returnTo=" == "&" + "returnTo" + "=";
  }

  /** Helper of `LogoutQueryBuilt`: the logout parameter name is its own encoding. */
  lemma ReturnToPlain() ensures UrlEncode("returnTo") == "returnTo" {
    var s := "returnTo";
    assert forall i :: 0 <= i < |s| ==> Unreserved(s[i] as int);
    UrlEncodeKeeps(s);
  }

  /** The path and query of the Auth0 logout URL. */
  function LogoutPath(cfg: Config, req: Request): (p: string)
    ensures p != "" && p[0] == '/'
  {
    "/v2/logout" + "?" + LogoutQuery(cfg, req)
  }

  /** `logout()` as written: the stored domain is put after "https://" as it is. */
  function LogoutAsWritten(cfg: Config, req: Request): (r: string)
    ensures !HasHttpScheme(cfg.domain) && TrimChars(cfg.domain, {'/'}) == cfg.domain ==> r == Logout(cfg, req)
  {
    if Empty(cfg.domain) then "/" else "https://" + cfg.domain + LogoutPath(cfg, req)
  }

  /** The URL `logout()` writes for a domain stored as "https://" host: the host part reads "https:". */
  lemma LogoutAsWrittenShape(cfg: Config, req: Request, h: string)
    requires cfg.domain == "https://" + h
    ensures LogoutAsWritten(cfg, req) == "https" + "://" + "https:" + ("//" + h + LogoutPath(cfg, req))
  {
    assert !Empty(cfg.domain) by { assert |cfg.domain| >= 8; }
    assert "https://" == "https:" + "//";
    assert "https://" == "https" + "://";
  }

  /** The authority "https:" names the host "https" with an empty port. */
  lemma HostOfSchemeName()
    ensures HostOf("https:") == "https"
  {
    assert "https" + ":" == "https:";
    HostOfHostPort("https", ":");
  }

  /** A domain stored with its scheme, which the rest of the plugin accepts, sends the logout to the host "https". */
  lemma LogoutAsWrittenHost(cfg: Config, req: Request, h: string)
    requires cfg.domain == "https://" + h
    ensures ParseUrl(LogoutAsWritten(cfg, req)).host == Some("https")
  {
    LogoutAsWrittenShape(cfg, req, h);
    ParseAuthority("https", "https:", "//" + h + LogoutPath(cfg, req));
    HostOfSchemeName();
  }

  /** A host name has no slash at either end and names no scheme. */
  lemma PlainHostName(h: string)
    requires HostName(h) && h != ""
    ensures h[0] != '/' && h[|h| - 1] != '/' && !HasHttpScheme(h)
  {
    assert HostChar(h[0]) && HostChar(h[|h| - 1]);
    if |h| >= 7 { assert HostChar(h[4]) && h[4] == h[..7][4]; }
    if |h| >= 8 { assert HostChar(h[5]) && h[5] == h[..8][5]; }
  }

  /** `logout()` with the domain normalised as everywhere else: slashes trimmed, "https://" added only when no scheme is given. */
  function Logout(cfg: Config, req: Request): (r: string)
    ensures Empty(cfg.domain) ==> r == "/"
    ensures !Empty(cfg.domain) ==> HasHttpScheme(r)
  {
    if Empty(cfg.domain) then "/"
    else
      var d := NormalizedDomain(cfg.domain);
      HasHttpSchemeAppend(d, LogoutPath(cfg, req));
      d + LogoutPath(cfg, req)
  }

  /** A logout URL whose normalised domain is scheme "://" host names that host. */
  lemma LogoutHostVia(cfg: Config, req: Request, scheme: string, h: string)
    requires scheme == "http" || scheme == "https"
    requires HostName(h) && !Empty(cfg.domain)
    requires NormalizedDomain(cfg.domain) == scheme + "://" + h
    ensures ParseUrl(Logout(cfg, req)).host == Some(h)
  {
    var path := LogoutPath(cfg, req);
    assert Logout(cfg, req) == scheme + "://" + h + "" + path;
    ParseOrigin(scheme, h, "", path);
  }

  /** Whether the tenant is stored bare or with an http(s) scheme, the logout goes to the tenant's host. */
  lemma LogoutHost(cfg: Config, req: Request, h: string)
    requires HostName(h) && h != "" && h != "0"
    requires cfg.domain == h || cfg.domain == "https://" + h || cfg.domain == "http://" + h
    ensures ParseUrl(Logout(cfg, req)).host == Some(h)
  {
    PlainHostName(h);
    NormalizedHost(h);
    assert !Empty(cfg.domain);
    if cfg.domain == "http://" + h {
      SchemeJoin("http", h);
      LogoutHostVia(cfg, req, "http", h);
    } else {
      SchemeJoin("https", h);
      LogoutHostVia(cfg, req, "https", h);
    }
  }

  /**
   * For a tenant stored bare or with an http(s) scheme and a client id
   * without '#', the logout URL reads back as the tenant's host, the path
   * "/v2/logout", the logout query and no fragment.
   */
  lemma LogoutTarget(cfg: Config, req: Request, h: string)
    requires HostName(h) && h != "" && h != "0"
    requires cfg.domain == h || cfg.domain == "https://" + h || cfg.domain == "http://" + h
    requires '#' !in cfg.clientId
    ensures ParseUrl(Logout(cfg, req)) == UrlParts(Some(h), Some("/v2/logout"), Some(LogoutQuery(cfg, req)), None)
  {
    var q := LogoutQuery(cfg, req);
    assert '#' !in q by {
      LogoutQueryNoHash(cfg.clientId, UrlEncode(LogoutReturnUrl(cfg, req)));
    }
    assert !Empty(cfg.domain) by { assert |cfg.domain| >= 1; }
    var scheme := TenantScheme(cfg.domain, h);
    var origin := scheme + "://" + h;
    assert Logout(cfg, req) == origin + ("/v2/logout" + "?" + q);
    AppendAssoc(origin, "/v2/logout" + "?", q);
    AppendAssoc(origin, "/v2/logout", "?");
    assert origin + ("/v2/logout" + "?" + q) == origin + "/v2/logout" + "?" + q + "";
    LogoutPathPlain();
    ParseFullUrl(scheme, h, "/v2/logout", q, None);
  }

  /** The logout query holds no '#' when the client id holds none. */
  lemma LogoutQueryNoHash(clientId: string, encoded: string)
    requires '#' !in clientId
    requires Encoded(encoded)
    ensures '#' !in "client_id=" + clientId + "&returnTo=" + encoded
  {
    EncodedHasNoDelimiters(encoded);
    var a, b := "client_id=", "&returnTo=";
    assert forall i :: 0 <= i < |a| ==> a[i] != '#';
    assert forall i :: 0 <= i < |b| ==> b[i] != '#';
  }

  /** The logout path holds neither a '?' nor a '#'. */
  lemma LogoutPathPlain()
    ensures '?' !in "/v2/logout" && '#' !in "/v2/logout"
  {
    var p := "/v2/logout";
    assert forall i :: 0 <= i < |p| ==> p[i] != '?' && p[i] != '#';
  }

  /** Scheme, "://" and host written in two pieces or three are the same text. */
  lemma SchemeJoin(scheme: string, h: string)
    ensures scheme + "://" + h == (scheme + "://") + h
    ensures scheme == "http" ==> scheme + "://" == "http://"
    ensures scheme == "https" ==> scheme + "://" == "https://"
  {
  }
}

=== FILE: php.dfy ===
/**
 * The PHP built-ins the plugin relies on, stated over Dafny strings:
 * `empty()`, `trim()`, `explode($sep, $s, 2)` / `strstr($s, $sep, true)`,
 * `str_replace()` of one character, integer-to-string conversion,
 * `urlencode()` and `http_build_query()`, and the values that
 * `json_decode($body, true)` produces.
 */
module Php {
  import opened Wrappers

  // ---------------------------------------------------------------------------
  // Sequences, whatever their elements

  /** A non-empty sequence is its head followed by its tail. */
  lemma ConsTail<T>(s: seq<T>)
    requires s != []
    ensures s == [s[0]] + s[1..]
  {
  }

  /** The head and tail of a concatenation whose left part is not empty. */
  lemma AppendTail<T>(a: seq<T>, b: seq<T>)
    requires a != []
    ensures (a + b)[0] == a[0] && (a + b)[1..] == a[1..] + b
  {
  }

  lemma AppendAssoc<T>(x: seq<T>, y: seq<T>, z: seq<T>)
    ensures x + (y + z) == (x + y) + z
  {
  }

  /** `s` starts with `head` and ends with `tail`, which do not overlap. */
  predicate Framed<T(==)>(s: seq<T>, head: seq<T>, tail: seq<T>) {
    |s| >= |head| + |tail| && s[..|head|] == head && s[|s| - |tail|..] == tail
  }

  /** Whatever comes between, `head + mid + tail` is framed by `head` and `tail`. */
  lemma FramedConcat<T>(head: seq<T>, mid: seq<T>, tail: seq<T>)
    ensures Framed(head + mid + tail, head, tail)
  {
  }

  // ---------------------------------------------------------------------------
  // Strings

  /** PHP's `empty()` on a string (null is written ""): true for "" and for "0". */
  predicate Empty(s: string) {
    s == "" || s == "0"
  }

  // ---------------------------------------------------------------------------
  // trim()

  /** The characters `trim()` strips when it is given no list. */
  const TrimWhitespace: set<char> := {' ', '\t', '\n', '\r', '\0', '\U{000B}'}

  /** Strips the characters of `cs` from the start of `s`. */
  function TrimLeft(s: string, cs: set<char>): (r: string)
    ensures |r| <= |s|
    ensures r == [] || r[0] !in cs
    ensures r != [] ==> r[|r| - 1] == s[|s| - 1]
  {
    if s == [] || s[0] !in cs then s else TrimLeft(s[1..], cs)
  }

  /** Strips the characters of `cs` from the end of `s`. */
  function TrimRight(s: string, cs: set<char>): (r: string)
    ensures |r| <= |s|
    ensures r == [] || r[|r| - 1] !in cs
    ensures r != [] ==> r[0] == s[0]
  {
    if s == [] || s[|s| - 1] !in cs then s else TrimRight(s[..|s| - 1], cs)
  }

  /** `trim($s, $chars)`: strips the characters of `cs` from both ends. */
  function TrimChars(s: string, cs: set<char>): (r: string)
    ensures |r| <= |s|
    ensures r == [] || (r[0] !in cs && r[|r| - 1] !in cs)
  {
    TrimRight(TrimLeft(s, cs), cs)
  }

  /** `trim($s)` with PHP's default whitespace list. */
  function Trim(s: string): string {
    TrimChars(s, TrimWhitespace)
  }

  /** A string with nothing to trim at either end is its own trimming. */
  lemma TrimCharsUntouched(s: string, cs: set<char>)
    requires s == [] || (s[0] !in cs && s[|s| - 1] !in cs)
    ensures TrimChars(s, cs) == s
  {
  }

  /** Characters of the list at the ends are trimmed one by one. */
  lemma TrimCharsEnds(s: string, cs: set<char>, c: char)
    requires c in cs
    ensures TrimChars([c] + s, cs) == TrimChars(s, cs)
    ensures s == [] || s[0] !in cs ==> TrimChars(s + [c], cs) == TrimChars(s, cs)
  {
    assert ([c] + s)[1..] == s;
    if s == [] {
      assert s + [c] == [c] && [c][1..] == [];
    } else if s[0] !in cs {
      assert TrimLeft(s + [c], cs) == s + [c];
      assert (s + [c])[..|s|] == s;
    }
  }

  // ---------------------------------------------------------------------------
  // strpos(), explode($sep, $s, 2), strstr($s, $sep, true)

  /** `strpos($s, $c)`: the index of the first occurrence of `c`, if any. */
  function IndexOf(s: string, c: char): (r: Option<nat>)
    ensures r.None? <==> c !in s
    ensures r.Some? ==> r.value < |s| && s[r.value] == c && c !in s[..r.value]
  {
    if s == [] then None
    else if s[0] == c then Some(0)
    else
      match IndexOf(s[1..], c)
      case None => None
      case Some(i) =>
        assert s[..i + 1] == [s[0]] + s[1..][..i];
        Some(i + 1)
  }

  /** The first occurrence is the only index that satisfies IndexOf's contract. */
  lemma IndexOfIs(s: string, c: char, i: nat)
    requires i < |s| && s[i] == c && c !in s[..i]
    ensures IndexOf(s, c) == Some(i)
  {
    var r := IndexOf(s, c);
    assert forall j :: 0 <= j < i ==> s[..i][j] == s[j];
    assert r.Some? && forall j :: 0 <= j < r.value ==> s[..r.value][j] == s[j];
  }

  /** A string cut at the first occurrence of a separator. */
  datatype Cut = Cut(before: string, after: Option<string>)

  /**
   * `explode($c, $s, 2)`: the text before the first `c` and, when `c`
   * occurs, the text after it. `strstr($s, $c, true)` is `before` when
   * `after` is present and `false` otherwise.
   */
  function SplitAt(s: string, c: char): (r: Cut)
    ensures r.after.None? <==> c !in s
    ensures c !in r.before
    ensures r.after.None? ==> r.before == s
    ensures r.after.Some? ==> s == r.before + [c] + r.after.value
  {
    match IndexOf(s, c)
    case None => Cut(s, None)
    case Some(i) =>
      assert s == s[..i] + [c] + s[i + 1..];
      Cut(s[..i], Some(s[i + 1..]))
  }

  /** SplitAt cuts at the first separator: any decomposition with no separator before it is the one. */
  lemma SplitAtIs(s: string, c: char, before: string, after: string)
    requires s == before + [c] + after && c !in before
    ensures SplitAt(s, c) == Cut(before, Some(after))
  {
    assert s[|before|] == c;
    assert s[..|before|] == before;
    IndexOfIs(s, c, |before|);
    assert s[|before| + 1..] == after;
  }

  /** A prefix free of the separator passes through SplitAt untouched. */
  lemma SplitAtAppend(a: string, b: string, c: char)
    requires c !in a
    ensures SplitAt(a + b, c) == Cut(a + SplitAt(b, c).before, SplitAt(b, c).after)
  {
    var cb := SplitAt(b, c);
    if cb.after.Some? {
      assert a + b == (a + cb.before) + [c] + cb.after.value;
      SplitAtIs(a + b, c, a + cb.before, cb.after.value);
    } else {
      assert c !in a + b;
    }
  }

  /** The part before the first separator of `s` starts with whatever `s` starts with, when that is not the separator. */
  lemma SplitAtKeepsHead(s: string, c: char)
    requires s != [] && s[0] != c
    ensures SplitAt(s, c).before != [] && SplitAt(s, c).before[0] == s[0]
  {
  }

  /** `str_replace($from, $to, $s)` for single characters. */
  function ReplaceChar(s: string, from: char, to: char): (r: string)
    ensures |r| == |s|
    ensures forall i :: 0 <= i < |s| ==> r[i] == (if s[i] == from then to else s[i])
  {
    seq(|s|, i requires 0 <= i < |s| => if s[i] == from then to else s[i])
  }

  // ---------------------------------------------------------------------------
  // Integers as strings

  function Digit(d: nat): (c: char)
    requires d < 10
    ensures '0' <= c <= '9'
  {
    ('0' as int + d) as char
  }

  /** PHP's conversion of a non-negative integer to its decimal string. */
  function NatToString(n: nat): (s: string)
    ensures 1 <= |s|
    ensures forall i :: 0 <= i < |s| ==> '0' <= s[i] <= '9'
  {
    if n < 10 then [Digit(n)] else NatToString(n / 10) + [Digit(n % 10)]
  }

  /** Distinct numbers print differently. */
  lemma {:induction false} NatToStringInjective(a: nat, b: nat)
    requires NatToString(a) == NatToString(b)
    ensures a == b
  {
    var sa, sb := NatToString(a), NatToString(b);
    if a >= 10 && b >= 10 {
      assert sa[..|sa| - 1] == NatToString(a / 10);
      assert sb[..|sb| - 1] == NatToString(b / 10);
      NatToStringInjective(a / 10, b / 10);
      assert Digit(a % 10) == sa[|sa| - 1] == Digit(b % 10);
    } else if a < 10 && b < 10 {
      assert Digit(a) == sa[0] == Digit(b);
    }
  }

  /** PHP's conversion of an integer to its decimal string. */
  function IntToString(n: int): string {
    if n < 0 then "-" + NatToString(-n) else NatToString(n)
  }

  // ---------------------------------------------------------------------------
  // urlencode() and http_build_query()

  /** The UTF-8 bytes of a character: PHP strings are byte strings. */
  function Utf8(c: char): (bytes: seq<nat>)
    ensures 1 <= |bytes| <= 4
    ensures forall i :: 0 <= i < |bytes| ==> bytes[i] < 256
  {
    var n := c as int;
    if n < 0x80 then [n]
    else if n < 0x800 then [0xC0 + n / 0x40, 0x80 + n % 0x40]
    else if n < 0x1_0000 then [0xE0 + n / 0x1000, 0x80 + n / 0x40 % 0x40, 0x80 + n % 0x40]
    else [0xF0 + n / 0x4_0000, 0x80 + n / 0x1000 % 0x40, 0x80 + n / 0x40 % 0x40, 0x80 + n % 0x40]
  }

  /** Bytes that `urlencode()` copies unchanged: ASCII letters, digits, '-', '_' and '.'. */
  predicate Unreserved(b: int) {
    || ('a' as int <= b <= 'z' as int)
    || ('A' as int <= b <= 'Z' as int)
    || ('0' as int <= b <= '9' as int)
    || b == '-' as int || b == '_' as int || b == '.' as int
  }

  /** The characters `urlencode()` can produce. */
  predicate EncodedChar(c: char) {
    Unreserved(c as int) || c == '+' || c == '%'
  }

  predicate Encoded(s: string) {
    forall i :: 0 <= i < |s| ==> EncodedChar(s[i])
  }

  function HexDigit(d: nat): (c: char)
    requires d < 16
    ensures Unreserved(c as int)
  {
    if d < 10 then Digit(d) else ('A' as int + d - 10) as char
  }

  /** One byte as `urlencode()` writes it: kept, '+' for a space, else '%' and two upper-case hex digits. */
  function EncodeByte(b: nat): (r: string)
    requires b < 256
    ensures Encoded(r)
    ensures Unreserved(b) ==> r == [b as char]
    ensures b == ' ' as int ==> r == "+"
  {
    if Unreserved(b) then [b as char]
    else if b == ' ' as int then "+"
    else ['%', HexDigit(b / 16), HexDigit(b % 16)]
  }

  function EncodeBytes(bytes: seq<nat>): (r: string)
    requires forall i :: 0 <= i < |bytes| ==> bytes[i] < 256
    ensures Encoded(r)
  {
    if bytes == [] then "" else EncodeByte(bytes[0]) + EncodeBytes(bytes[1..])
  }

  /**
   * `urlencode($s)`. Its output consists of unreserved characters, '+' and
   * '%' only, so it never contains '&', '=', '?', '#' or '/'.
   */
  function UrlEncode(s: string): (r: string)
    ensures Encoded(r)
  {
    if s == [] then "" else EncodeBytes(Utf8(s[0])) + UrlEncode(s[1..])
  }

  /** Encoding distributes over concatenation. */
  lemma {:induction false} UrlEncodeAppend(a: string, b: string)
    ensures UrlEncode(a + b) == UrlEncode(a) + UrlEncode(b)
  {
    if a != [] {
      AppendTail(a, b);
      UrlEncodeAppend(a[1..], b);
      AppendAssoc(EncodeBytes(Utf8(a[0])), UrlEncode(a[1..]), UrlEncode(b));
    } else {
      assert a + b == b;
    }
  }

  /** An unreserved ASCII character is kept and a space becomes '+'. */
  lemma EncodeAscii(c: char)
    requires Unreserved(c as int) || c == ' '
    ensures EncodeBytes(Utf8(c)) == [if c == ' ' then '+' else c]
  {
    assert Utf8(c) == [c as int];
    assert EncodeBytes([c as int]) == EncodeByte(c as int) + EncodeBytes([]);
  }

  /** `ReplaceChar` works on the first character, then on the rest. */
  lemma ReplaceCharCons(s: string, from: char, to: char)
    requires s != []
    ensures ReplaceChar(s, from, to) == [if s[0] == from then to else s[0]] + ReplaceChar(s[1..], from, to)
  {
    var r, t := ReplaceChar(s, from, to), ReplaceChar(s[1..], from, to);
    assert forall i :: 1 <= i < |s| ==> r[i] == t[i - 1];
  }

  /** Text made of unreserved ASCII characters and spaces is encoded by turning each space into '+'. */
  lemma {:induction false} UrlEncodePlain(s: string)
    requires forall i :: 0 <= i < |s| ==> Unreserved(s[i] as int) || s[i] == ' '
    ensures UrlEncode(s) == ReplaceChar(s, ' ', '+')
  {
    if s != [] {
      UrlEncodePlain(s[1..]);
      EncodeAscii(s[0]);
      ReplaceCharCons(s, ' ', '+');
    }
  }

  /** An encoded string contains none of the characters that structure a URL or its query. */
  lemma EncodedHasNoDelimiters(s: string)
    requires Encoded(s)
    ensures '&' !in s && '=' !in s && '?' !in s && '#' !in s && '/' !in s && ' ' !in s
  {
    forall i | 0 <= i < |s|
      ensures s[i] != '&' && s[i] != '=' && s[i] != '?' && s[i] != '#' && s[i] != '/' && s[i] != ' '
    {
      assert EncodedChar(s[i]);
    }
  }

  /** One `key=value` pair of `http_build_query()`. */
  function QueryPair(p: (string, string)): string {
    UrlEncode(p.0) + "=" + UrlEncode(p.1)
  }

  /** `http_build_query($params)`: encoded `key=value` pairs joined by '&'. */
  function BuildQuery(params: seq<(string, string)>): string {
    if params == [] then ""
    else if |params| == 1 then QueryPair(params[0])
    else QueryPair(params[0]) + "&" + BuildQuery(params[1..])
  }

  /** Reads a query string back into its raw (still encoded) `key=value` pairs. */
  function SplitQuery(q: string): seq<(string, string)>
    decreases |q|
  {
    var piece := SplitAt(q, '&');
    var kv := SplitAt(piece.before, '=');
    var pair := (kv.before, if kv.after.Some? then kv.after.value else "");
    match piece.after
    case None => [pair]
    case Some(rest) => [pair] + SplitQuery(rest)
  }

  /** The first pair of a query reads back encoded, followed by the rest of the query read back. */
  lemma QueryHead(p: (string, string), rest: seq<(string, string)>)
    ensures SplitQuery(BuildQuery([p] + rest))
         == [(UrlEncode(p.0), UrlEncode(p.1))] + (if rest == [] then [] else SplitQuery(BuildQuery(rest)))
  {
    var ps := [p] + rest;
    assert ps[0] == p && ps[1..] == rest;
    var k, v := UrlEncode(p.0), UrlEncode(p.1);
    EncodedHasNoDelimiters(k);
    EncodedHasNoDelimiters(v);
    var pair := k + "=" + v;
    assert '&' !in pair;
    SplitAtIs(pair, '=', k, v);
    if rest == [] {
      assert SplitAt(pair, '&') == Cut(pair, None);
    } else {
      SplitAtIs(pair + "&" + BuildQuery(rest), '&', pair, BuildQuery(rest));
    }
  }

  /** A built query never contains '#', so it cannot run into a fragment. */
  lemma {:induction false} BuildQueryNoHash(params: seq<(string, string)>)
    ensures '#' !in BuildQuery(params)
  {
    if params != [] {
      EncodedHasNoDelimiters(UrlEncode(params[0].0));
      EncodedHasNoDelimiters(UrlEncode(params[0].1));
      if |params| > 1 {
        BuildQueryNoHash(params[1..]);
      }
    }
  }

  /** Each pair with its key and value encoded, in order. */
  function EncodedPairs(params: seq<(string, string)>): (r: seq<(string, string)>)
    ensures |r| == |params|
    ensures forall i :: 0 <= i < |params| ==> r[i] == (UrlEncode(params[i].0), UrlEncode(params[i].1))
  {
    if params == [] then []
    else [(UrlEncode(params[0].0), UrlEncode(params[0].1))] + EncodedPairs(params[1..])
  }

  /**
   * The query `http_build_query()` writes splits back into exactly the
   * pairs it was given, each key and value in encoded form: no value can
   * leak into another parameter.
   */
  lemma {:induction false} QueryRoundTrip(params: seq<(string, string)>)
    requires params != []
    ensures SplitQuery(BuildQuery(params)) == EncodedPairs(params)
  {
    ConsTail(params);
    QueryHead(params[0], params[1..]);
    if |params| > 1 {
      QueryRoundTrip(params[1..]);
    }
  }

  // ---------------------------------------------------------------------------
  // Decoded JSON

  /** A value of `json_decode($body, true)`; objects decode to string-keyed arrays. */
  datatype Json =
    | JNull
    | JBool(b: bool)
    | JInt(i: int)
    | JStr(s: string)
    | JObj(fields: map<string, Json>)

  /** PHP's truth value of a decoded value: what `array_filter()` without a callback keeps. */
  predicate Truthy(v: Json) {
    match v
    case JNull => false
    case JBool(b) => b
    case JInt(i) => i != 0
    case JStr(s) => !Empty(s)
    case JObj(m) => |m| != 0
  }

  /** The string a decoded value becomes when stored in a text column. */
  function AsText(v: Json): string {
    match v
    case JNull => ""
    case JBool(b) => if b then "1" else ""
    case JInt(i) => IntToString(i)
    case JStr(s) => s
    case JObj(_) => "Array"
  }

  /** `isset($fields[$key]) ? $fields[$key] : null`. */
  function Member(fields: map<string, Json>, key: string): Option<Json> {
    if key in fields && fields[key] != JNull then Some(fields[key]) else None
  }

  /** A string is truthy exactly when it is not `empty()`. */
  lemma TruthyString(s: string)
    ensures Truthy(JStr(s)) <==> !Empty(s)
  {
  }
}

=== FILE: routes.dfy ===
/**
 * The routes the plugin registers (Plugin.php) under the `web` middleware:
 * `/auth0/login`, `/auth0/callback`, `/auth0/logout` and `/auth0/webhook`,
 * each answering a framework response. Whether the application runs in
 * production and the exception's trace text are inputs.
 */
module Routes {
  import opened Wrappers
  import opened Php
  import opened Urls
  import opened Settings
  import opened Http
  import opened Users
  import opened LoginFlow

  /**
   * The hand-off of the login route: a `url.intended` left by another
   * component is moved to `auth0_intended`; without one the session stays
   * as it is.
   */
  function Handoff(data: map<string, string>): (d: map<string, string>)
    ensures "url.intended" !in d
    ensures "url.intended" in data ==> "auth0_intended" in d && d["auth0_intended"] == data["url.intended"]
    ensures "url.intended" !in data ==> d == data
    ensures forall k :: k in data && k != "url.intended" && k != "auth0_intended" ==> k in d && d[k] == data[k]
    ensures forall k :: k in d ==> k in data || k == "auth0_intended"
  {
    if "url.intended" in data then data["auth0_intended" := data["url.intended"]] - {"url.intended"}
    else data
  }

  /**
   * `GET /auth0/login`: the hand-off, then `redirectToAuth0()`. An
   * unconfigured plugin raises its exception out of the route; otherwise
   * the answer redirects to the authorization URL.
   */
  method LoginRoute(cfg: Config, req: Request, session: Session, appRoot: string,
                    driver: (SocialiteConfig, bool) -> Result<string, string>)
    returns (resp: Response)
    modifies session
    ensures !IsConfigured(cfg) ==>
      resp == Raised(Message(NotConfigured)) && session.data == Handoff(old(session.data))
    ensures IsConfigured(cfg) ==> resp == Redirect(AuthorizeTarget(cfg, req, appRoot, driver))
    ensures IsConfigured(cfg) && req.hasSession ==>
      session.data == StashIntended(Handoff(old(session.data)), req.input)
    ensures !req.hasSession ==> session.data == Handoff(old(session.data))
    ensures session.user == old(session.user)
  {
    if session.Has("url.intended") {
      var intended := session.data["url.intended"];
      session.Put("auth0_intended", intended);
      session.Forget("url.intended");
    }
    var r := RedirectToAuth0(cfg, req, session, appRoot, driver);
    match r
    case Failure(e) => resp := Raised(Message(e));
    case Success(url) => resp := Redirect(url);
  }

  /**
   * After the login route with a session, the page the callback returns to
   * is, in order: the `redirect` parameter, a stored `url.intended`, a
   * stored `auth0_intended`, "/". The hand-off makes an explicit
   * `redirect` parameter win over `url.intended`, the reverse of
   * `redirectToAuth0()` called alone.
   */
  lemma {:induction false} LoginRouteTarget(data: map<string, string>, input: map<string, string>)
    ensures ReturnTarget(StashIntended(Handoff(data), input), true) ==
      if "redirect" in input then input["redirect"]
      else if "url.intended" in data then data["url.intended"]
      else if "auth0_intended" in data then data["auth0_intended"]
      else "/"
  {
    var h := Handoff(data);
    var d := StashIntended(h, input);
    assert "auth0_intended" in d;
    assert ReturnTarget(d, true) == d["auth0_intended"];
    if "redirect" !in input && "url.intended" in data {
      assert h["auth0_intended"] == data["url.intended"];
    }
  }

  /** `redirectToAuth0()` alone lets a stored `url.intended` win over the `redirect` parameter. */
  lemma {:induction false} StoredIntendedWinsAlone(data: map<string, string>, input: map<string, string>)
    requires "url.intended" in data
    ensures ReturnTarget(StashIntended(data, input), true) == data["url.intended"]
  {
    var d := StashIntended(data, input);
    assert "auth0_intended" in d;
  }

  /**
   * What the callback route answers for the outcome of `handleCallback()`:
   * the redirect on success; on an exception, outside production a 500
   * page showing the message and the trace, in production the exception
   * itself.
   */
  function CallbackResponse(outcome: Result<string, AuthError>, production: bool, trace: string): (resp: Response)
    ensures outcome.Success? ==> resp == Redirect(outcome.value)
    ensures outcome.Failure? && production ==> resp == Raised(Message(outcome.error))
    ensures outcome.Failure? && !production ==>
      resp.Page? && resp.status == 500 && Framed(resp.body, "<pre>Auth0 Error: " + Message(outcome.error), "</pre>")
  {
    match outcome
    case Success(url) => Redirect(url)
    case Failure(e) =>
      if production then Raised(Message(e))
      else
        var head, detail := "<pre>Auth0 Error: " + Message(e), "\n\nTrace:\n" + trace;
        FramedConcat(head, detail, "</pre>");
        Page(500, head + detail + "</pre>")
  }

  /**
   * `GET /auth0/callback`. A successful sign-in redirects to the request's
   * own host (for a host name the request layer accepts) and the sanitised
   * target; every refusal of `handleCallback()` (a guard, the exchange, or
   * auto-create being off) becomes the error response for that refusal; the
   * store is `Resolve`'s whenever the exchange authenticates; and the
   * sign-in happens exactly when the answer is a redirect.
   */
  method CallbackRoute(cfg: Config, req: Request, session: Session, store: UserStore, exchange: ExchangeOutcome,
                       env: Env, production: bool, trace: string)
    returns (resp: Response)
    modifies session, store
    ensures HostName(req.host) && resp.Redirect? ==> ParseUrl(resp.location).host == Some(req.host)
    ensures resp.Redirect? <==>
      CallbackGuard(cfg, req).None? && exchange.Authenticated? &&
      Resolve(old(store.users), exchange.claims, cfg, env).user.Some?
    ensures resp.Redirect? ==> session.user == Resolve(old(store.users), exchange.claims, cfg, env).user
    ensures !resp.Redirect? ==> session.user == old(session.user) && session.data == old(session.data)
    ensures CallbackGuard(cfg, req).Some? ==>
      resp == CallbackResponse(Failure(CallbackGuard(cfg, req).value), production, trace) && store.users == old(store.users)
    ensures CallbackGuard(cfg, req).None? && ExchangeError(exchange).Some? ==>
      resp == CallbackResponse(Failure(ExchangeError(exchange).value), production, trace) && store.users == old(store.users)
    ensures CallbackGuard(cfg, req).None? && exchange.Authenticated? ==>
      store.users == Resolve(old(store.users), exchange.claims, cfg, env).users
    ensures CallbackGuard(cfg, req).None? && exchange.Authenticated? && Resolve(old(store.users), exchange.claims, cfg, env).user.None? ==>
      resp == CallbackResponse(Failure(AutoCreateDisabled), production, trace)
    ensures resp.Redirect? ==>
      resp.location == SchemeAndHttpHost(req) + SanitizeTarget(ReturnTarget(old(session.data), req.hasSession), req.host) &&
      session.data == if req.hasSession then old(session.data) - {"url.intended", "auth0_intended"} else old(session.data)
  {
    var r := HandleCallback(cfg, req, session, store, exchange, env);
    if r.Success? && HostName(req.host) {
      CallbackStaysOnHost(ReturnTarget(old(session.data), req.hasSession), req);
    }
    resp := CallbackResponse(r, production, trace);
  }

  /** `POST /auth0/webhook`: whatever the payload, the JSON answer `{"success": true}`. */
  function WebhookRoute(payload: map<string, Json>): (resp: Response)
    ensures resp.JsonReply? && resp.code == 200
    ensures resp.payload.JObj? && "success" in resp.payload.fields && resp.payload.fields["success"] == JBool(true)
    ensures resp.payload.fields.Keys == {"success"}
  {
    JsonReply(200, JObj(map["success" := JBool(true)]))
  }

  /** `GET /auth0/logout`: the local user is signed out first, then the visitor goes to the Auth0 logout URL. */
  method LogoutRoute(cfg: Config, req: Request, session: Session) returns (resp: Response)
    modifies session
    ensures session.user == None && session.data == old(session.data)
    ensures resp == Redirect(Logout(cfg, req))
    ensures Empty(cfg.domain) ==> resp == Redirect("/")
    ensures !Empty(cfg.domain) ==> HasHttpScheme(resp.location)
  {
    session.Logout();
    resp := Redirect(Logout(cfg, req));
  }
}

=== FILE: settings.dfy ===
/**
 * The plugin's settings record (models/Settings.php): its defaults, the
 * "is configured" predicate, the configuration handed to the login driver,
 * and the normalisations the plugin applies to the tenant domain.
 */
module Settings {
  import opened Wrappers
  import opened Php

  /** The stored settings; "" stands for a missing (null) text value. */
  datatype Config = Config(
    domain: string,
    clientId: string,
    clientSecret: string,
    callbackUrl: string,
    logoutUrl: string,
    autoCreateUsers: bool,
    syncUserData: bool,
    defaultUserGroup: Option<nat>,
    statelessMode: bool)

  /** The provider can be used only when the domain and both credentials are non-empty ("0" counts as empty). */
  predicate IsConfigured(c: Config)
    ensures IsConfigured(c) <==>
      (c.domain != "" && c.domain != "0") &&
      (c.clientId != "" && c.clientId != "0") &&
      (c.clientSecret != "" && c.clientSecret != "0")
  {
    !Empty(c.domain) && !Empty(c.clientId) && !Empty(c.clientSecret)
  }

  /** The values a fresh settings record starts with. */
  function Defaults(): (c: Config)
    ensures !IsConfigured(c)
    ensures c.domain == "" && c.clientId == "" && c.clientSecret == ""
    ensures c.callbackUrl == "" && c.logoutUrl == ""
    ensures c.autoCreateUsers && c.syncUserData && !c.statelessMode
    ensures c.defaultUserGroup.None?
  {
    Config("", "", "", "", "", true, true, None, false)
  }

  /** The settings record as the framework stores it: fields assigned in place. */
  class SettingsModel {
    var domain: string
    var clientId: string
    var clientSecret: string
    var callbackUrl: string
    var logoutUrl: string
    var autoCreateUsers: bool
    var syncUserData: bool
    var defaultUserGroup: Option<nat>
    var statelessMode: bool

    constructor (c: Config)
      ensures AsConfig() == c
    {
      domain, clientId, clientSecret := c.domain, c.clientId, c.clientSecret;
      callbackUrl, logoutUrl := c.callbackUrl, c.logoutUrl;
      autoCreateUsers, syncUserData := c.autoCreateUsers, c.syncUserData;
      defaultUserGroup, statelessMode := c.defaultUserGroup, c.statelessMode;
    }

    function AsConfig(): Config
      reads this
    {
      Config(domain, clientId, clientSecret, callbackUrl, logoutUrl,
             autoCreateUsers, syncUserData, defaultUserGroup, statelessMode)
    }

    /** Resets every field to its default; the record is then not configured. */
    method InitSettingsData()
      modifies this
      ensures AsConfig() == Defaults()
      ensures !IsConfigured(AsConfig())
    {
      domain := "";
      clientId := "";
      clientSecret := "";
      callbackUrl := "";
      logoutUrl := "";
      autoCreateUsers := true;
      syncUserData := true;
      defaultUserGroup := None;
      statelessMode := false;
    }
  }

  /** The framework's `url($path)`: the application root, one '/', the path without its outer slashes; outer slashes trimmed. */
  function UrlTo(root: string, path: string): (r: string)
    ensures r == [] || (r[0] != '/' && r[|r| - 1] != '/')
  {
    TrimChars(root + "/" + TrimChars(path, {'/'}), {'/'})
  }

  /** For a root without outer slashes, `url('/')` is the root. */
  lemma UrlToHome(root: string)
    requires root != [] && root[0] != '/' && root[|root| - 1] != '/'
    ensures UrlTo(root, "/") == root
  {
    assert TrimChars("/", {'/'}) == "" by {
      TrimCharsEnds("", {'/'}, '/');
      assert [('/')] + "" == "/";
    }
    assert root + "/" + "" == root + ['/'];
    TrimCharsEnds(root, {'/'}, '/');
    TrimCharsUntouched(root, {'/'});
  }

  /** For a root without outer slashes, `url('/p')` is root + "/p". */
  lemma UrlToPath(root: string, p: string)
    requires root != [] && root[0] != '/' && root[|root| - 1] != '/'
    requires p != [] && p[0] != '/' && p[|p| - 1] != '/'
    ensures UrlTo(root, "/" + p) == root + "/" + p
  {
    assert TrimChars("/" + p, {'/'}) == p by {
      TrimCharsEnds(p, {'/'}, '/');
      TrimCharsUntouched(p, {'/'});
    }
    var s := root + "/" + p;
    assert s[0] == root[0] && s[|s| - 1] == p[|p| - 1];
    TrimCharsUntouched(s, {'/'});
  }

  /** The driver configuration `getAuth0Config()` returns. */
  datatype Auth0Config = Auth0Config(
    domain: string,
    clientId: string,
    clientSecret: string,
    redirect: string,
    logoutUrl: string)

  /** Stored credentials as they are; a callback and logout URL falling back to the application's own URLs when empty. */
  function GetAuth0Config(c: Config, appRoot: string): (r: Auth0Config)
    ensures r.domain == c.domain && r.clientId == c.clientId && r.clientSecret == c.clientSecret
    ensures !Empty(c.callbackUrl) ==> r.redirect == c.callbackUrl
    ensures Empty(c.callbackUrl) ==> r.redirect == UrlTo(appRoot, "/auth0/callback")
    ensures !Empty(c.logoutUrl) ==> r.logoutUrl == c.logoutUrl
    ensures Empty(c.logoutUrl) ==> r.logoutUrl == UrlTo(appRoot, "/")
  {
    Auth0Config(
      c.domain, c.clientId, c.clientSecret,
      if Empty(c.callbackUrl) then UrlTo(appRoot, "/auth0/callback") else c.callbackUrl,
      if Empty(c.logoutUrl) then UrlTo(appRoot, "/") else c.logoutUrl)
  }

  /** With no URLs stored, the driver is sent to the application's callback route and home page. */
  lemma DefaultUrls(c: Config, appRoot: string)
    requires c.callbackUrl == "" && c.logoutUrl == ""
    requires appRoot != [] && appRoot[0] != '/' && appRoot[|appRoot| - 1] != '/'
    ensures GetAuth0Config(c, appRoot).redirect == appRoot + "/auth0/callback"
    ensures GetAuth0Config(c, appRoot).logoutUrl == appRoot
  {
    var p := "auth0/callback";
    assert GetAuth0Config(c, appRoot).redirect == appRoot + "/auth0/callback" by {
      assert p[0] != '/' && p[|p| - 1] != '/';
      assert "/" + p == "/auth0/callback";
      assert appRoot + "/" + p == appRoot + "/auth0/callback";
      UrlToPath(appRoot, p);
    }
    UrlToHome(appRoot);
  }

  // ---------------------------------------------------------------------------
  // The tenant domain

  /** The domain already names its scheme: it starts with "http://" or "https://". */
  predicate HasHttpScheme(d: string) {
    (|d| >= 7 && d[..7] == "http://") || (|d| >= 8 && d[..8] == "https://")
  }

  /** Text appended after a URL does not change the scheme it starts with. */
  lemma HasHttpSchemeAppend(d: string, x: string)
    requires HasHttpScheme(d)
    ensures HasHttpScheme(d + x)
  {
    if |d| >= 7 && d[..7] == "http://" {
      assert (d + x)[..7] == d[..7];
    } else {
      assert (d + x)[..8] == d[..8];
    }
  }

  /** Prefixes "https://" unless the domain already names an http(s) scheme. */
  function WithHttps(d: string): (r: string)
    ensures HasHttpScheme(r)
    ensures HasHttpScheme(d) ==> r == d
    ensures !HasHttpScheme(d) ==> r == "https://" + d
  {
    if HasHttpScheme(d) then d else "https://" + d
  }

  /** The domain with its outer slashes trimmed and an https scheme added when it names none. */
  function NormalizedDomain(d: string): (r: string)
    ensures HasHttpScheme(r)
    ensures TrimChars(d, {'/'}) != "" ==> r[|r| - 1] != '/'
    ensures HasHttpScheme(TrimChars(d, {'/'})) ==> r == TrimChars(d, {'/'})
    ensures !HasHttpScheme(TrimChars(d, {'/'})) ==> r == "https://" + TrimChars(d, {'/'})
  {
    WithHttps(TrimChars(d, {'/'}))
  }

  /** Normalising a domain that is more than slashes a second time changes nothing. */
  lemma NormalizedDomainIdempotent(d: string)
    requires TrimChars(d, {'/'}) != ""
    ensures NormalizedDomain(NormalizedDomain(d)) == NormalizedDomain(d)
  {
    var n := NormalizedDomain(d);
    assert HasHttpScheme(n);
    assert TrimChars(n, {'/'}) == n by {
      assert n != [] && n[0] == 'h' && n[|n| - 1] != '/';
      TrimCharsUntouched(n, {'/'});
    }
    assert WithHttps(n) == n;
  }

  /** A bare host name, or one written with an http(s) scheme, normalises to "https://" host or keeps its scheme. */
  lemma NormalizedHost(h: string)
    requires h != [] && h[0] != '/' && h[|h| - 1] != '/'
    requires !HasHttpScheme(h)
    ensures NormalizedDomain(h) == "https://" + h
    ensures NormalizedDomain("https://" + h) == "https://" + h
    ensures NormalizedDomain("http://" + h) == "http://" + h
  {
    TrimCharsUntouched(h, {'/'});
    TrimCharsUntouched("https://" + h, {'/'});
    TrimCharsUntouched("http://" + h, {'/'});
    assert ("https://" + h)[..8] == "https://";
    assert ("http://" + h)[..7] == "http://";
  }
}

=== FILE: urls.dfy ===
/**
 * A simplified `parse_url()`: the host, path, query and fragment that the
 * redirect sanitiser reads, following the generic syntax of section 3 of
 * RFC 3986 (scheme "://" authority path "?" query "#" fragment, or a
 * network-path reference starting with "//").
 */
module Urls {
  import opened Wrappers
  import opened Php

  datatype UrlParts = UrlParts(
    host: Option<string>,
    path: Option<string>,
    query: Option<string>,
    fragment: Option<string>)

  /** Characters of a scheme name (section 3.1 of RFC 3986). */
  predicate SchemeChar(c: char) {
    ('a' <= c <= 'z') || ('A' <= c <= 'Z') || ('0' <= c <= '9') || c == '+' || c == '-' || c == '.'
  }

  /** Characters of a host name as the request layer accepts it: letters, digits, '-', '_' and '.'. */
  predicate HostChar(c: char) {
    ('a' <= c <= 'z') || ('A' <= c <= 'Z') || ('0' <= c <= '9') || c == '-' || c == '_' || c == '.'
  }

  predicate HostName(h: string) {
    forall i :: 0 <= i < |h| ==> HostChar(h[i])
  }

  /** Where the authority of `s` begins: after a leading "//" or after "scheme://". */
  function AuthorityStart(s: string): (k: Option<nat>)
    ensures k.Some? ==> 2 <= k.value <= |s| && s[k.value - 2] == '/' && s[k.value - 1] == '/'
  {
    if |s| >= 2 && s[0] == '/' && s[1] == '/' then Some(2)
    else
      match IndexOf(s, ':')
      case None => None
      case Some(i) =>
        if 1 <= i && i + 3 <= |s| && s[i + 1] == '/' && s[i + 2] == '/'
           && forall j :: 0 <= j < i ==> SchemeChar(s[j])
        then Some(i + 3)
        else None
  }

  /** Drops the user information: everything up to the last '@'. */
  function AfterLastAt(s: string): (r: string)
    ensures '@' !in r
    ensures '@' !in s ==> r == s
    decreases |s|
  {
    match SplitAt(s, '@').after
    case None => s
    case Some(rest) => AfterLastAt(rest)
  }

  /** The part of `s` before its last `c`; all of `s` when it has none. */
  function BeforeLast(s: string, c: char): (r: string)
    ensures c !in s ==> r == s
    ensures c in s ==> |r| < |s| && s[..|r|] == r && s[|r|] == c && c !in s[|r| + 1..]
    decreases |s|
  {
    if s == [] then s
    else if s[|s| - 1] == c then s[..|s| - 1]
    else if c in s[..|s| - 1] then
      var r := BeforeLast(s[..|s| - 1], c);
      assert s[|r| + 1..] == s[..|s| - 1][|r| + 1..] + [s[|s| - 1]];
      r
    else
      assert s == s[..|s| - 1] + [s[|s| - 1]];
      s
  }

  /** The last `c` of `s` is the one no other `c` follows. */
  lemma BeforeLastIs(s: string, c: char, before: string, after: string)
    requires s == before + [c] + after && c !in after
    ensures BeforeLast(s, c) == before
    decreases |after|
  {
    if after == [] {
      assert s[..|s| - 1] == before;
    } else {
      var s', after' := s[..|s| - 1], after[..|after| - 1];
      assert s' == before + [c] + after';
      assert s[|s| - 1] == after[|after| - 1];
      assert s'[|before|] == c;
      BeforeLastIs(s', c, before, after');
    }
  }

  /**
   * The host named by an authority: no user information (up to the last
   * '@'), no port (from the last ':').
   */
  function HostOf(authority: string): (h: string)
    ensures '@' !in h
  {
    var a := AfterLastAt(authority);
    var h := BeforeLast(a, ':');
    assert '@' !in h by {
      if ':' in a { assert forall j :: 0 <= j < |h| ==> h[j] == a[j]; }
    }
    h
  }

  /** Decimal digits, as `isdigit()` tests them. */
  predicate DecimalChar(c: char) {
    '0' <= c <= '9'
  }

  /** The number of decimal digits `s` begins with. */
  function DigitRun(s: string): (n: nat)
    ensures n <= |s|
  {
    if s != [] && DecimalChar(s[0]) then 1 + DigitRun(s[1..]) else 0
  }

  /** The value of a string of decimal digits, as `strtol()` reads it. */
  function DecimalValue(s: string): int {
    if s == [] then 0 else DecimalValue(s[..|s| - 1]) * 10 + (s[|s| - 1] as int - '0' as int)
  }

  /**
   * A port that `parse_url()` reads right after the first ':' of a string
   * with no "//" authority ("host:port" or "host:port/path"): one to five
   * digits up to the end of the string or a '/', worth at most 65535, after
   * a non-empty name of scheme characters or, when a '?' follows the ':',
   * after any non-empty text.
   */
  predicate PortAfterColon(s: string) {
    IndexOf(s, ':').Some? && NameBeforeColon(s, IndexOf(s, ':').value) && PortDigitsAfter(s, IndexOf(s, ':').value)
  }

  /** A non-empty name of scheme characters before position `i`, or any non-empty text when a '?' follows. */
  predicate NameBeforeColon(s: string, i: nat)
    requires i < |s|
  {
    1 <= i && ((forall j :: 0 <= j < i ==> SchemeChar(s[j])) || '?' in s[i + 1..])
  }

  /** One to five digits after position `i`, up to the end or a '/', worth at most 65535. */
  predicate PortDigitsAfter(s: string, i: nat)
    requires i < |s|
  {
    var n := DigitRun(s[i + 1..]);
    1 <= n <= 5 && (i + 1 + n == |s| || s[i + 1 + n] == '/') && DecimalValue(s[i + 1..i + 1 + n]) <= 65535
  }

  /** The part of `s` before its query and fragment. */
  function Reference(s: string): string {
    SplitAt(SplitAt(s, '#').before, '?').before
  }

  /**
   * `parse_url($s)`, simplified: the fragment follows the first '#', the
   * query the first '?' before it; an authority follows "//" or
   * "scheme://" and runs to the next '/'; without those, a string with a
   * port after its first ':' starts with its authority. An empty host is
   * not reported (`parse_url()` rejects it).
   */
  function ParseUrl(s: string): (u: UrlParts)
    ensures u.fragment.None? <==> '#' !in s
    ensures u.host.Some? && u.path.Some? ==> u.path.value != [] && u.path.value[0] == '/'
  {
    var frag := SplitAt(s, '#');
    var query := SplitAt(frag.before, '?');
    var rest := query.before;
    match AuthorityStart(rest)
    case None =>
      var auth := SplitAt(rest, '/');
      if PortAfterColon(s) && HostOf(auth.before) != "" then
        UrlParts(Some(HostOf(auth.before)),
                 if auth.after.Some? then Some("/" + auth.after.value) else None,
                 query.after, frag.after)
      else
        UrlParts(None, if rest == "" then None else Some(rest), query.after, frag.after)
    case Some(k) =>
      var auth := SplitAt(rest[k..], '/');
      UrlParts(Some(HostOf(auth.before)),
               if auth.after.Some? then Some("/" + auth.after.value) else None,
               query.after, frag.after)
  }

  /** Characters that never occur in an origin written as scheme "://" host [":" port]. */
  lemma OriginHasNoDelimiters(scheme: string, host: string, port: string)
    requires scheme == "http" || scheme == "https"
    requires HostName(host)
    requires port == "" || (port[0] == ':' && forall i :: 1 <= i < |port| ==> '0' <= port[i] <= '9')
    ensures forall i :: 0 <= i < |host + port| ==> (host + port)[i] !in {'#', '?', '/', '@'}
    ensures forall i :: 0 <= i < |scheme + "://" + host + port| ==> (scheme + "://" + host + port)[i] !in {'#', '?'}
  {
    var hp := host + port;
    forall i | 0 <= i < |hp| ensures hp[i] !in {'#', '?', '/', '@'} {
      if i < |host| { assert HostChar(host[i]); } else { assert hp[i] == port[i - |host|]; }
    }
    var o := scheme + "://" + host + port;
    forall i | 0 <= i < |o| ensures o[i] !in {'#', '?'} {
      if i >= |scheme| + 3 { assert o[i] == hp[i - |scheme| - 3]; }
    }
  }

  /** Cutting off the query and fragment of origin + path keeps the origin and a path that still starts with '/'. */
  lemma ReferenceOfOriginPath(o: string, path: string) returns (p: string)
    requires '#' !in o && '?' !in o
    requires path == "" || path[0] == '/'
    ensures Reference(o + path) == o + p
    ensures p == "" || p[0] == '/'
  {
    SplitAtAppend(o, path, '#');
    var p1 := SplitAt(path, '#').before;
    if path != "" { SplitAtKeepsHead(path, '#'); }
    SplitAtAppend(o, p1, '?');
    p := SplitAt(p1, '?').before;
    if p1 != "" { SplitAtKeepsHead(p1, '?'); }
  }

  /** After "http://" or "https://" the authority starts. */
  lemma AuthorityAfterScheme(scheme: string, rest: string)
    requires scheme == "http" || scheme == "https"
    ensures AuthorityStart(scheme + "://" + rest) == Some(|scheme| + 3)
  {
    var s := scheme + "://" + rest;
    assert s[..|scheme|] == scheme;
    IndexOfIs(s, ':', |scheme|);
  }

  /** An authority free of '/' followed by nothing or by a path ends at the path. */
  lemma AuthorityBeforePath(auth: string, p: string)
    requires '/' !in auth
    requires p == "" || p[0] == '/'
    ensures SplitAt(auth + p, '/').before == auth
  {
    SplitAtAppend(auth, p, '/');
    if p != "" {
      SplitAtIs(p, '/', "", p[1..]);
    } else {
      assert auth + p == auth;
    }
  }

  /** The host of host [":" port] is the host. */
  lemma HostOfHostPort(host: string, port: string)
    requires '@' !in host && ':' !in host
    requires port == "" || (port[0] == ':' && ':' !in port[1..])
    requires '@' !in port
    ensures HostOf(host + port) == host
  {
    var hp := host + port;
    assert '@' !in hp;
    if port != "" {
      assert hp == host + [':'] + port[1..];
      BeforeLastIs(hp, ':', host, port[1..]);
    } else {
      assert hp == host;
    }
  }

  /** A host name holds no '@' and no ':'. */
  lemma HostNamePlain(host: string)
    requires HostName(host)
    ensures '@' !in host && ':' !in host
  {
    forall i | 0 <= i < |host| ensures host[i] != ':' && host[i] != '@' { assert HostChar(host[i]); }
  }

  /** The host `parse_url()` reports once the authority start of the reference is known. */
  lemma ParseUrlHost(s: string, k: nat)
    requires AuthorityStart(Reference(s)) == Some(k)
    ensures ParseUrl(s).host == Some(HostOf(SplitAt(Reference(s)[k..], '/').before))
  {
  }

  /**
   * "http://" or "https://", an authority holding no '/', '?' or '#', then
   * nothing or a path starting with '/': the host is the authority's, whatever
   * the path holds.
   */
  lemma ParseAuthority(scheme: string, auth: string, path: string)
    requires scheme == "http" || scheme == "https"
    requires '/' !in auth && '?' !in auth && '#' !in auth
    requires path == "" || path[0] == '/'
    ensures ParseUrl(scheme + "://" + auth + path).host == Some(HostOf(auth))
  {
    var o := scheme + "://" + auth;
    var p := ReferenceOfAuthority(scheme, auth, path);
    var k := |scheme| + 3;
    assert AuthorityStart(o + p) == Some(k) by {
      assert o + p == scheme + "://" + (auth + p);
      AuthorityAfterScheme(scheme, auth + p);
    }
    assert SplitAt((o + p)[k..], '/').before == auth by {
      assert (o + p)[k..] == auth + p;
      AuthorityBeforePath(auth, p);
    }
    ParseUrlHost(o + path, k);
  }

  /** The reference part of "scheme://" auth path is "scheme://" auth followed by nothing or a path. */
  lemma ReferenceOfAuthority(scheme: string, auth: string, path: string) returns (p: string)
    requires scheme == "http" || scheme == "https"
    requires '/' !in auth && '?' !in auth && '#' !in auth
    requires path == "" || path[0] == '/'
    ensures Reference(scheme + "://" + auth + path) == scheme + "://" + auth + p
    ensures p == "" || p[0] == '/'
  {
    var o := scheme + "://" + auth;
    assert '#' !in o && '?' !in o by {
      forall i | 0 <= i < |o| ensures o[i] != '#' && o[i] != '?' {
        if i >= |scheme| + 3 { assert o[i] == auth[i - |scheme| - 3]; }
      }
    }
    p := ReferenceOfOriginPath(o, path);
  }

  /**
   * A URL written as an origin (scheme, host and optional port) followed
   * by nothing or by a path starting with '/' names that host, whatever
   * the path holds: the path cannot move the URL to another host.
   */
  lemma ParseOrigin(scheme: string, host: string, port: string, path: string)
    requires scheme == "http" || scheme == "https"
    requires HostName(host)
    requires port == "" || (port[0] == ':' && forall i :: 1 <= i < |port| ==> '0' <= port[i] <= '9')
    requires path == "" || path[0] == '/'
    ensures ParseUrl(scheme + "://" + host + port + path).host == Some(host)
  {
    assert ParseUrl(scheme + "://" + (host + port) + path).host == Some(host) by {
      OriginAuthority(scheme, host, port);
      ParseAuthority(scheme, host + port, path);
    }
    AppendAssoc(scheme + "://", host, port);
  }

  /** Host and port of an origin form an authority that names the host. */
  lemma OriginAuthority(scheme: string, host: string, port: string)
    requires scheme == "http" || scheme == "https"
    requires HostName(host)
    requires port == "" || (port[0] == ':' && forall i :: 1 <= i < |port| ==> '0' <= port[i] <= '9')
    ensures '/' !in host + port && '?' !in host + port && '#' !in host + port
    ensures HostOf(host + port) == host
  {
    var hp := host + port;
    assert '/' !in hp && '?' !in hp && '#' !in hp && '@' !in port by {
      OriginHasNoDelimiters(scheme, host, port);
      assert forall i :: 0 <= i < |port| ==> port[i] == hp[|host| + i];
    }
    HostNamePlain(host);
    if port != "" {
      assert ':' !in port[1..] by {
        forall i | 0 <= i < |port[1..]| ensures port[1..][i] != ':' { assert port[1..][i] == port[i + 1]; }
      }
    }
    HostOfHostPort(host, port);
  }

  /** Digits followed by nothing or by a non-digit: the run of digits is exactly those. */
  lemma DigitRunOf(digits: string, rest: string)
    requires forall j :: 0 <= j < |digits| ==> DecimalChar(digits[j])
    requires rest == "" || !DecimalChar(rest[0])
    ensures DigitRun(digits + rest) == |digits|
  {
    if digits != [] {
      var t := digits + rest;
      assert t[0] == digits[0] && DecimalChar(t[0]);
      assert t[1..] == digits[1..] + rest;
      DigitRunOf(digits[1..], rest);
      assert DigitRun(t) == 1 + DigitRun(t[1..]);
    } else {
      assert digits + rest == rest;
    }
  }

  /** The characters of a scheme-like host and a numeric port. */
  lemma HostPortChars(host: string, port: string)
    requires forall j :: 0 <= j < |host| ==> SchemeChar(host[j])
    requires forall j :: 0 <= j < |port| ==> DecimalChar(port[j])
    ensures ':' !in host && '@' !in host && ':' !in port
    ensures forall j :: 0 <= j < |host + ":" + port| ==> (host + ":" + port)[j] !in {'/', '?', '#', '@'}
  {
    assert ':' !in port by {
      forall j | 0 <= j < |port| ensures port[j] != ':' { assert DecimalChar(port[j]); }
    }
    assert ':' !in host && '@' !in host by {
      forall j | 0 <= j < |host| ensures host[j] != ':' && host[j] != '@' { assert SchemeChar(host[j]); }
    }
    var hp := host + ":" + port;
    forall j | 0 <= j < |hp| ensures hp[j] !in {'/', '?', '#', '@'} {
      if j < |host| { assert SchemeChar(host[j]); }
      else if j > |host| { assert hp[j] == port[j - |host| - 1]; assert DecimalChar(port[j - |host| - 1]); }
    }
  }

  /** In a scheme-less host ":" port path, the first ':' ends the host and a port follows it. */
  lemma HostPortColon(host: string, port: string, path: string)
    requires host != [] && forall j :: 0 <= j < |host| ==> SchemeChar(host[j])
    requires 1 <= |port| <= 5 && forall j :: 0 <= j < |port| ==> DecimalChar(port[j])
    requires DecimalValue(port) <= 65535
    requires path == "" || path[0] == '/'
    requires ':' !in host
    ensures PortAfterColon(host + ":" + port + path)
  {
    ColonIndex(host, port, path);
    HostPortDigits(host, port, path);
    HostPortName(host, port, path);
    PortAt(host + ":" + port + path, |host|);
  }

  /** The first ':' of host ":" port path follows the host when the host has none. */
  lemma ColonIndex(host: string, port: string, path: string)
    requires ':' !in host
    ensures IndexOf(host + ":" + port + path, ':') == Some(|host|)
  {
    var s := host + ":" + port + path;
    assert s[|host|] == ':' && s[..|host|] == host;
    IndexOfIs(s, ':', |host|);
  }

  /** A first ':' with a name before it and a valid port after it. */
  lemma PortAt(s: string, i: nat)
    requires i < |s| && IndexOf(s, ':') == Some(i)
    requires NameBeforeColon(s, i) && PortDigitsAfter(s, i)
    ensures PortAfterColon(s)
  {
  }

  /** A scheme-less host ":" port path starts no authority: no "//" at its start or after its first ':'. */
  lemma HostPortNoAuthority(host: string, port: string, path: string)
    requires host != [] && SchemeChar(host[0]) && ':' !in host
    requires port != [] && DecimalChar(port[0])
    ensures AuthorityStart(host + ":" + port + path).None?
  {
    var s := host + ":" + port + path;
    ColonIndex(host, port, path);
    assert s[0] != '/' && s[|host| + 1] != '/' by {
      assert s[0] == host[0];
      assert s[|host| + 1] == port[0];
    }
    NoAuthorityAt(s, |host|);
  }

  /** The port of a scheme-less host ":" port path passes the port test. */
  lemma HostPortDigits(host: string, port: string, path: string)
    requires 1 <= |port| <= 5 && forall j :: 0 <= j < |port| ==> DecimalChar(port[j])
    requires DecimalValue(port) <= 65535
    requires path == "" || path[0] == '/'
    ensures PortDigitsAfter(host + ":" + port + path, |host|)
  {
    ColonSlices(host, port, path);
    DigitRunOf(port, path);
  }

  /** The slices of host ":" port path after the ':'. */
  lemma ColonSlices(host: string, port: string, path: string)
    ensures var s, i := host + ":" + port + path, |host|;
      s[i + 1..] == port + path && s[i + 1..i + 1 + |port|] == port &&
      (path != "" ==> s[i + 1 + |port|] == path[0])
  {
  }

  /** The host of a scheme-less host ":" port path is a name of scheme characters. */
  lemma HostPortName(host: string, port: string, path: string)
    requires host != [] && forall j :: 0 <= j < |host| ==> SchemeChar(host[j])
    ensures NameBeforeColon(host + ":" + port + path, |host|)
  {
    var s := host + ":" + port + path;
    forall j | 0 <= j < |host| ensures SchemeChar(s[j]) { assert s[j] == host[j]; }
  }

  /** No "//" at the start and none after the first ':': no authority start. */
  lemma NoAuthorityAt(s: string, i: nat)
    requires IndexOf(s, ':') == Some(i)
    requires i + 1 < |s| && s[0] != '/' && s[i + 1] != '/'
    ensures AuthorityStart(s).None?
  {
  }

  /** A scheme-less host ":" port path holds no '#' and no '?', and its first '/' starts the path. */
  lemma HostPortCuts(host: string, port: string, path: string)
    requires forall j :: 0 <= j < |host + ":" + port| ==> (host + ":" + port)[j] !in {'/', '?', '#', '@'}
    requires path == "" || (path[0] == '/' && '?' !in path && '#' !in path)
    ensures '#' !in host + ":" + port + path && '?' !in host + ":" + port + path
    ensures SplitAt(host + ":" + port + path, '/') == Cut(host + ":" + port, if path == "" then None else Some(path[1..]))
  {
    var hp := host + ":" + port;
    var s := hp + path;
    assert '#' !in s && '?' !in s by {
      forall j | 0 <= j < |s| ensures s[j] != '#' && s[j] != '?' {
        if j >= |hp| { assert s[j] == path[j - |hp|]; } else { assert s[j] == hp[j]; }
      }
    }
    assert '/' !in hp by {
      forall j | 0 <= j < |hp| ensures hp[j] != '/' { assert hp[j] !in {'/', '?', '#', '@'}; }
    }
    if path == "" { assert s == hp; } else { CutAuthority(hp, path); }
  }

  /** The host of a host ":" port with no ':' or '@' in either part. */
  lemma HostOfColonPort(host: string, port: string)
    requires ':' !in host && '@' !in host && ':' !in port
    requires forall j :: 0 <= j < |host + ":" + port| ==> (host + ":" + port)[j] !in {'/', '?', '#', '@'}
    ensures HostOf(host + ":" + port) == host
  {
    var hp := host + ":" + port;
    assert (":" + port)[1..] == port;
    assert hp == host + (":" + port);
    assert '@' !in ":" + port by {
      forall j | 0 <= j < |":" + port| ensures (":" + port)[j] != '@' { assert (":" + port)[j] == hp[|host| + j]; }
    }
    HostOfHostPort(host, ":" + port);
  }

  /**
   * A scheme-less host of scheme characters, ':' and a port of one to five
   * digits worth at most 65535, then nothing or a path free of '?' and '#':
   * the string names that host and that path.
   */
  lemma ParseHostPort(host: string, port: string, path: string)
    requires host != [] && forall j :: 0 <= j < |host| ==> SchemeChar(host[j])
    requires 1 <= |port| <= 5 && forall j :: 0 <= j < |port| ==> DecimalChar(port[j])
    requires DecimalValue(port) <= 65535
    requires path == "" || (path[0] == '/' && '?' !in path && '#' !in path)
    ensures ParseUrl(host + ":" + port + path) == UrlParts(Some(host), if path == "" then None else Some(path), None, None)
  {
    HostPortChars(host, port);
    HostPortColon(host, port, path);
    HostPortNoAuthority(host, port, path);
    HostPortCuts(host, port, path);
    HostOfColonPort(host, port);
    if path != "" { ConsTail(path); }
  }

  /** A URL has a host only when it is at least two characters long: the authority follows "//". */
  lemma HostNeedsAuthority(s: string)
    requires ParseUrl(s).host.Some?
    ensures |s| >= 2
  {
    var rest := SplitAt(SplitAt(s, '#').before, '?').before;
    if AuthorityStart(rest).None? {
      assert PortAfterColon(s);
      var i := IndexOf(s, ':').value;
      assert NameBeforeColon(s, i) && PortDigitsAfter(s, i);
    }
  }

  /** `ParseUrl` read off the cuts it makes: at '#', at '?', after the authority start, at the first '/'. */
  lemma ParseUrlOfCuts(s: string, ref: string, rest: string, query: string, fragment: Option<string>,
                       k: nat, host: string, p: string)
    requires SplitAt(s, '#') == Cut(ref, fragment)
    requires SplitAt(ref, '?') == Cut(rest, Some(query))
    requires AuthorityStart(rest) == Some(k)
    requires SplitAt(rest[k..], '/') == Cut(host, Some(p))
    requires HostOf(host) == host
    ensures ParseUrl(s) == UrlParts(Some(host), Some("/" + p), Some(query), fragment)
  {
  }

  /** A reference free of '#' followed by an optional "#" fragment is cut back into the two. */
  lemma CutFragment(ref: string, fragment: Option<string>)
    requires '#' !in ref
    ensures SplitAt(ref + (if fragment.Some? then "#" + fragment.value else ""), '#') == Cut(ref, fragment)
  {
    if fragment.Some? {
      AppendAssoc(ref, "#", fragment.value);
      SplitAtIs(ref + "#" + fragment.value, '#', ref, fragment.value);
    } else {
      assert ref + "" == ref;
    }
  }

  /** A host name followed by a path is cut at the path's leading '/'. */
  lemma CutAuthority(host: string, path: string)
    requires '/' !in host
    requires path != [] && path[0] == '/'
    ensures SplitAt(host + path, '/') == Cut(host, Some(path[1..]))
  {
    assert host + path == host + ['/'] + path[1..];
    SplitAtIs(host + path, '/', host, path[1..]);
  }

  /** A host name holds none of the characters that end an authority, and is its own host. */
  lemma PlainAuthority(scheme: string, host: string)
    requires scheme == "http" || scheme == "https"
    requires HostName(host)
    ensures '#' !in scheme + "://" + host && '?' !in scheme + "://" + host && '/' !in host
    ensures HostOf(host) == host
  {
    OriginHasNoDelimiters(scheme, host, "");
    assert host + "" == host;
    assert scheme + "://" + host + "" == scheme + "://" + host;
    HostNamePlain(host);
    HostOfHostPort(host, "");
  }

  /**
   * "http://" or "https://", a host name, a path starting with '/' and free
   * of '?' and '#', '?', a query free of '#' and an optional '#' fragment:
   * the host, path, query and fragment are read back as written.
   */
  lemma ParseFullUrl(scheme: string, host: string, path: string, query: string, fragment: Option<string>)
    requires scheme == "http" || scheme == "https"
    requires HostName(host)
    requires path != [] && path[0] == '/' && '?' !in path && '#' !in path
    requires '#' !in query
    ensures ParseUrl(scheme + "://" + host + path + "?" + query + (if fragment.Some? then "#" + fragment.value else ""))
         == UrlParts(Some(host), Some(path), Some(query), fragment)
  {
    var rest := scheme + "://" + host + path;
    var ref := rest + "?" + query;
    var k := |scheme| + 3;
    PlainAuthority(scheme, host);
    QueryCut(scheme, host, path, query);
    AuthorityCut(scheme, host, path);
    ConsTail(path);
    CutFragment(ref, fragment);
    ParseUrlOfCuts(ref + (if fragment.Some? then "#" + fragment.value else ""), ref, rest, query, fragment, k, host, path[1..]);
  }

  /** Scheme "://" host path "?" query holds no '#', and its first '?' starts the query. */
  lemma QueryCut(scheme: string, host: string, path: string, query: string)
    requires scheme == "http" || scheme == "https"
    requires HostName(host)
    requires '?' !in path && '#' !in path
    requires '#' !in query
    ensures var rest := scheme + "://" + host + path;
      '#' !in rest + "?" + query && SplitAt(rest + "?" + query, '?') == Cut(rest, Some(query))
  {
    PlainAuthority(scheme, host);
    var rest := scheme + "://" + host + path;
    SplitAtIs(rest + "?" + query, '?', rest, query);
  }

  /** In scheme "://" host path, the authority starts after "//" and its first '/' starts the path. */
  lemma AuthorityCut(scheme: string, host: string, path: string)
    requires scheme == "http" || scheme == "https"
    requires HostName(host)
    requires path != [] && path[0] == '/'
    ensures var rest := scheme + "://" + host + path;
      AuthorityStart(rest) == Some(|scheme| + 3) && SplitAt(rest[|scheme| + 3..], '/') == Cut(host, Some(path[1..]))
  {
    PlainAuthority(scheme, host);
    var rest := scheme + "://" + host + path;
    var k := |scheme| + 3;
    assert AuthorityStart(rest) == Some(k) && rest[k..] == host + path by {
      assert rest == scheme + "://" + (host + path);
      AuthorityAfterScheme(scheme, host + path);
    }
    CutAuthority(host, path);
  }
}

=== FILE: userinfo.dfy ===
/**
 * The userinfo side of the plugin (classes/Auth0UserInfoService.php): the
 * service's normalised domain, the empty-token guards, the merge of the
 * Rhythm custom claims, and the fill-if-empty update of a user record from
 * a userinfo response.
 */
module UserInfo {
  import opened Wrappers
  import opened Php
  import opened Settings
  import opened Users

  /** What the HTTP client reports for the userinfo request: status, body, and `json_decode`'s value or error text. */
  datatype Reply = Reply(code: int, body: string, decoded: Result<Json, string>)

  /** The outcome of `testConnection()`: a failure message, or the fields read off a userinfo response. */
  datatype Probe =
    | Failed(message: string)
    | Connected(message: string, userId: Json, email: Json, rhythm: map<string, Json>)

  /**
   * What a call throws: an `Exception`, which the service's `catch` blocks
   * handle, or a `TypeError`, which they let through.
   */
  datatype Thrown = Exception(message: string) | TypeError(message: string)

  const NoTokenMessage := "No access token provided. A valid Auth0 access token is required to test the connection."

  /** PHP's name for the type of a decoded value that is not an array, as TypeError messages give it. */
  function TypeName(v: Json): string {
    match v
    case JNull => "null"
    case JBool(_) => "bool"
    case JInt(_) => "int"
    case JStr(_) => "string"
    case JObj(_) => "array"
  }

  /** The message of the TypeError `array_merge()` raises for a non-array second argument. */
  function MergeTypeError(v: Json): string {
    "array_merge(): Argument #2 must be of type array, " + TypeName(v) + " given"
  }

  /** The message of the TypeError `array_filter()` raises for a non-array first argument. */
  function FilterTypeError(v: Json): string {
    "array_filter(): Argument #1 ($array) must be of type array, " + TypeName(v) + " given"
  }

  /** `$info[$key] ?? null` on a decoded response: only objects have members. */
  function Claim(info: Json, key: string): Option<Json> {
    if info.JObj? then Member(info.fields, key) else None
  }

  /** `$info[$key] ?? $default`. */
  function ClaimOr(info: Json, key: string, default: Json): Json {
    if Claim(info, key).Some? then Claim(info, key).value else default
  }

  /** The value checked by `isset($info[$meta]['rhythm'])`, if set. */
  function RhythmIn(info: Json, meta: string): Option<Json> {
    match Claim(info, meta)
    case Some(JObj(fields)) => Member(fields, "rhythm")
    case _ => None
  }

  /** The four custom claims, null where missing. */
  function CustomClaims(info: Json): map<string, Json> {
    map[
      "contact_id" := ClaimOr(info, "http://rhythmsoftware.com/contact_id", JNull),
      "tenant_id" := ClaimOr(info, "http://rhythmsoftware.com/tenant_id", JNull),
      "customer_id" := ClaimOr(info, "http://rhythmsoftware.com/customer_id", JNull),
      "contact_name" := ClaimOr(info, "http://rhythmsoftware.com/contact_name", JNull)]
  }

  /** `array_merge($m, $v)` when `$v` is set: later keys win; a non-array raises a TypeError. */
  function MergeIn(m: map<string, Json>, v: Option<Json>): (r: Result<map<string, Json>, string>)
    ensures v.None? ==> r == Success(m)
    ensures v.Some? && v.value.JObj? ==> r.Success? && r.value.Keys == m.Keys + v.value.fields.Keys
    ensures v.Some? && v.value.JObj? ==> forall k :: k in r.value ==>
      r.value[k] == if k in v.value.fields then v.value.fields[k] else m[k]
    ensures v.Some? && !v.value.JObj? ==> r == Failure(MergeTypeError(v.value))
  {
    match v
    case None => Success(m)
    case Some(JObj(fields)) => Success(m + fields)
    case Some(other) => Failure(MergeTypeError(other))
  }

  /** `array_filter($m)`: the truthy entries. */
  function Truthful(m: map<string, Json>): (r: map<string, Json>)
    ensures forall k :: k in r <==> k in m && Truthy(m[k])
    ensures forall k :: k in r ==> r[k] == m[k]
  {
    map k | k in m && Truthy(m[k]) :: m[k]
  }

  /** `extractRhythmData()`: custom claims, overridden by app metadata, overridden by user metadata, falsy values dropped. */
  function ExtractRhythmData(info: Json): (r: Result<map<string, Json>, string>)
    ensures !info.JObj? ==> r == Success(map[])
    ensures r.Success? ==> forall k :: k in r.value ==> Truthy(r.value[k])
    ensures r.Failure? <==>
      ((RhythmIn(info, "app_metadata").Some? && !RhythmIn(info, "app_metadata").value.JObj?) ||
       (RhythmIn(info, "user_metadata").Some? && !RhythmIn(info, "user_metadata").value.JObj?))
  {
    if !info.JObj? then Success(map[])
    else
      match MergeIn(CustomClaims(info), RhythmIn(info, "app_metadata"))
      case Failure(e) => Failure(e)
      case Success(m) =>
        match MergeIn(m, RhythmIn(info, "user_metadata"))
        case Failure(e) => Failure(e)
        case Success(m2) => Success(Truthful(m2))
  }

  /** The entries of a rhythm object set under `meta`, or none. */
  function Layer(info: Json, meta: string): map<string, Json> {
    match RhythmIn(info, meta)
    case Some(JObj(fields)) => fields
    case _ => map[]
  }

  /** A value as the result keeps it: truthy values are kept, the others dropped. */
  function Kept(v: Json): Option<Json> {
    if Truthy(v) then Some(v) else None
  }

  function Lookup(m: map<string, Json>, k: string): Option<Json> {
    if k in m then Some(m[k]) else None
  }

  /**
   * Later sources win: a key set in the user metadata takes that value, else
   * one set in the app metadata takes that one, else the custom claim's;
   * a falsy winner removes the key.
   */
  lemma RhythmPrecedence(info: Json, k: string)
    requires info.JObj?
    requires ExtractRhythmData(info).Success?
    ensures var r := ExtractRhythmData(info).value;
      Lookup(r, k) ==
        if k in Layer(info, "user_metadata") then Kept(Layer(info, "user_metadata")[k])
        else if k in Layer(info, "app_metadata") then Kept(Layer(info, "app_metadata")[k])
        else if k in CustomClaims(info) then Kept(CustomClaims(info)[k])
        else None
  {
    var m1 := MergeIn(CustomClaims(info), RhythmIn(info, "app_metadata")).value;
    var m2 := MergeIn(m1, RhythmIn(info, "user_metadata")).value;
    assert ExtractRhythmData(info).value == Truthful(m2);
    assert k in m1 <==> k in Layer(info, "app_metadata") || k in CustomClaims(info);
    assert k in m1 ==> m1[k] == if k in Layer(info, "app_metadata") then Layer(info, "app_metadata")[k] else CustomClaims(info)[k];
    assert k in m2 <==> k in Layer(info, "user_metadata") || k in m1;
    assert k in m2 ==> m2[k] == if k in Layer(info, "user_metadata") then Layer(info, "user_metadata")[k] else m1[k];
  }

  /**
   * The decoded userinfo of a reply, or what `getUserInfo()` throws for it:
   * a transport failure, another status and a decoding error are
   * exceptions; a 200 that decodes to something other than an array makes
   * the logging call `array_filter()` throw a TypeError.
   */
  function Fetched(reply: Result<Reply, string>): (r: Result<Json, Thrown>)
    ensures r.Success? <==>
      reply.Success? && reply.value.code == 200 && reply.value.decoded.Success? && reply.value.decoded.value.JObj?
    ensures r.Success? ==> r.value == reply.value.decoded.value
    ensures reply.Failure? ==> r == Failure(Exception(reply.error))
    ensures reply.Success? && reply.value.code != 200 ==>
      var head := "Auth0 User Info request failed with status " + IntToString(reply.value.code) + ": ";
      r.Failure? && r.error.Exception? &&
      |r.error.message| == |head| + |reply.value.body| &&
      r.error.message[..|head|] == head && r.error.message[|head|..] == reply.value.body
    ensures reply.Success? && reply.value.code == 200 && reply.value.decoded.Failure? ==>
      var head := "Failed to parse Auth0 User Info response: ";
      r.Failure? && r.error.Exception? &&
      |r.error.message| == |head| + |reply.value.decoded.error| &&
      r.error.message[..|head|] == head && r.error.message[|head|..] == reply.value.decoded.error
    ensures reply.Success? && reply.value.code == 200 && reply.value.decoded.Success? && !reply.value.decoded.value.JObj? ==>
      r == Failure(TypeError(FilterTypeError(reply.value.decoded.value)))
  {
    match reply
    case Failure(e) => Failure(Exception(e))
    case Success(Reply(code, body, decoded)) =>
      if code != 200 then
        Failure(Exception("Auth0 User Info request failed with status " + IntToString(code) + ": " + body))
      else match decoded
        case Failure(e) => Failure(Exception("Failed to parse Auth0 User Info response: " + e))
        case Success(v) => if v.JObj? then Success(v) else Failure(TypeError(FilterTypeError(v)))
  }

  /**
   * The Rhythm contact id: the merged claim when set, otherwise the claim of
   * the stored ID token (`tokenContact`), which only fills an empty id of a
   * user holding an ID token.
   */
  function ContactStep(u: User, rhythm: map<string, Json>, tokenContact: Option<Json>): (r: User)
    ensures r == u.(rhythmContactId := r.rhythmContactId)
    ensures "contact_id" in rhythm && Truthy(rhythm["contact_id"]) ==> r.rhythmContactId == AsText(rhythm["contact_id"])
    ensures !("contact_id" in rhythm && Truthy(rhythm["contact_id"])) && (!Empty(u.rhythmContactId) || Empty(u.idToken) || tokenContact.None?)
      ==> r.rhythmContactId == u.rhythmContactId
    ensures !("contact_id" in rhythm && Truthy(rhythm["contact_id"])) && Empty(u.rhythmContactId) && !Empty(u.idToken) && tokenContact.Some?
      ==> r.rhythmContactId == AsText(tokenContact.value)
  {
    var u1 := if "contact_id" in rhythm && Truthy(rhythm["contact_id"])
              then u.(rhythmContactId := AsText(rhythm["contact_id"])) else u;
    if Empty(u1.rhythmContactId) && !Empty(u1.idToken) && tokenContact.Some?
    then u1.(rhythmContactId := AsText(tokenContact.value)) else u1
  }

  /** A truthy `name` claim, trimmed and split at its first space; none when the claim is unset or falsy. */
  function NameParts(info: Json): (p: Option<Cut>)
    ensures p.Some? <==> Claim(info, "name").Some? && Truthy(Claim(info, "name").value)
    ensures p.Some? ==> ' ' !in p.value.before
  {
    match Claim(info, "name")
    case Some(v) => if Truthy(v) then Some(SplitAt(Trim(AsText(v)), ' ')) else None
    case None => None
  }

  /**
   * The `name` claim: its first word into an empty or placeholder first
   * name, the rest into an empty last name.
   */
  function NameStep(u: User, info: Json): (r: User)
    ensures r == u.(firstName := r.firstName, lastName := r.lastName)
    ensures NameParts(info).None? ==> r == u
    ensures !FirstOpen(u) ==> r.firstName == u.firstName
    ensures NameParts(info).Some? && FirstOpen(u) ==> r.firstName == NameParts(info).value.before
    ensures !Empty(u.lastName) ==> r.lastName == u.lastName
    ensures NameParts(info).Some? && Empty(u.lastName) ==>
      r.lastName == if NameParts(info).value.after.Some? then NameParts(info).value.after.value else u.lastName
  {
    match NameParts(info)
    case Some(parts) =>
      var withFirst := if FirstOpen(u) then u.(firstName := parts.before) else u;
      if Empty(withFirst.lastName) && parts.after.Some? then withFirst.(lastName := parts.after.value) else withFirst
    case None => u
  }

  /** `given_name`, `family_name` and `picture`, each only into a field still open. */
  function FillStep(u: User, info: Json): (r: User)
    ensures r == u.(firstName := r.firstName, lastName := r.lastName, avatar := r.avatar)
    ensures !FirstOpen(u) ==> r.firstName == u.firstName
    ensures !Empty(u.lastName) ==> r.lastName == u.lastName
    ensures !Empty(u.avatar) ==> r.avatar == u.avatar
    ensures Claim(info, "given_name").Some? && FirstOpen(u) ==> r.firstName == AsText(Claim(info, "given_name").value)
    ensures Claim(info, "given_name").None? ==> r.firstName == u.firstName
    ensures Claim(info, "family_name").Some? && Empty(u.lastName) ==> r.lastName == AsText(Claim(info, "family_name").value)
    ensures Claim(info, "family_name").None? ==> r.lastName == u.lastName
    ensures Claim(info, "picture").Some? && Empty(u.avatar) ==> r.avatar == AsText(Claim(info, "picture").value)
    ensures Claim(info, "picture").None? ==> r.avatar == u.avatar
  {
    var u1 := if Claim(info, "given_name").Some? && FirstOpen(u)
              then u.(firstName := AsText(Claim(info, "given_name").value)) else u;
    var u2 := if Claim(info, "family_name").Some? && Empty(u1.lastName)
              then u1.(lastName := AsText(Claim(info, "family_name").value)) else u1;
    if Claim(info, "picture").Some? && Empty(u2.avatar)
    then u2.(avatar := AsText(Claim(info, "picture").value)) else u2
  }

  /**
   * A userinfo response applied to a record: the contact id, the names,
   * the picture (each only into an empty field, the first name also into
   * the placeholder "User"), then the whole response and the time.
   */
  function ApplyUserInfo(u: User, info: Json, rhythm: map<string, Json>, tokenContact: Option<Json>, now: int): (r: User)
    ensures r.userInfo == Some(info) && r.userInfoUpdatedAt == Some(now)
    ensures !FirstOpen(u) ==> r.firstName == u.firstName
    ensures !Empty(u.lastName) ==> r.lastName == u.lastName
    ensures !Empty(u.avatar) ==> r.avatar == u.avatar
    ensures "contact_id" in rhythm && Truthy(rhythm["contact_id"]) ==> r.rhythmContactId == AsText(rhythm["contact_id"])
    ensures !("contact_id" in rhythm && Truthy(rhythm["contact_id"])) && (!Empty(u.rhythmContactId) || Empty(u.idToken) || tokenContact.None?)
      ==> r.rhythmContactId == u.rhythmContactId
    ensures !("contact_id" in rhythm && Truthy(rhythm["contact_id"])) && Empty(u.rhythmContactId) && !Empty(u.idToken) && tokenContact.Some?
      ==> r.rhythmContactId == AsText(tokenContact.value)
    ensures FirstOpen(u) ==>
      var named := if NameParts(info).Some? then NameParts(info).value.before else u.firstName;
      r.firstName == if Claim(info, "given_name").Some? && (Empty(named) || named == "User")
                     then AsText(Claim(info, "given_name").value) else named
    ensures Empty(u.lastName) ==>
      var named := if NameParts(info).Some? && NameParts(info).value.after.Some? then NameParts(info).value.after.value else u.lastName;
      r.lastName == if Claim(info, "family_name").Some? && Empty(named)
                    then AsText(Claim(info, "family_name").value) else named
    ensures Empty(u.avatar) && Claim(info, "picture").Some? ==> r.avatar == AsText(Claim(info, "picture").value)
    ensures Claim(info, "picture").None? ==> r.avatar == u.avatar
    ensures r == u.(firstName := r.firstName, lastName := r.lastName, avatar := r.avatar,
                    rhythmContactId := r.rhythmContactId, userInfo := r.userInfo, userInfoUpdatedAt := r.userInfoUpdatedAt)
  {
    var u1 := ContactStep(u, rhythm, tokenContact);
    var u2 := FillStep(NameStep(u1, info), info);
    u2.(userInfo := Some(info), userInfoUpdatedAt := Some(now))
  }

  /**
   * A first name taken from the `name` claim stays: `given_name` is looked
   * at afterwards and only fills a first name that is still empty or "User".
   */
  lemma NameClaimWins(u: User, info: Json, rhythm: map<string, Json>, tokenContact: Option<Json>, now: int, full: string)
    requires FirstOpen(u)
    requires Claim(info, "name") == Some(JStr(full)) && !Empty(full)
    requires var first := SplitAt(Trim(full), ' ').before; !Empty(first) && first != "User"
    ensures ApplyUserInfo(u, info, rhythm, tokenContact, now).firstName == SplitAt(Trim(full), ' ').before
  {
    var u1 := ContactStep(u, rhythm, tokenContact);
    assert NameStep(u1, info).firstName == SplitAt(Trim(full), ' ').before;
  }

  /** Without a `name` claim, `given_name` fills an empty or placeholder first name. */
  lemma GivenNameFills(u: User, info: Json, rhythm: map<string, Json>, tokenContact: Option<Json>, now: int)
    requires FirstOpen(u)
    requires Claim(info, "name").None? && Claim(info, "given_name").Some?
    ensures ApplyUserInfo(u, info, rhythm, tokenContact, now).firstName == AsText(Claim(info, "given_name").value)
  {
    var u1 := ContactStep(u, rhythm, tokenContact);
    assert NameStep(u1, info) == u1;
  }

  /** The contact-id block of `updateUserFromUserInfo()`, field by field. */
  method SetContact(u0: User, rhythm: map<string, Json>, tokenContact: Option<Json>) returns (u: User)
    ensures u == ContactStep(u0, rhythm, tokenContact)
  {
    u := u0;
    if "contact_id" in rhythm && Truthy(rhythm["contact_id"]) {
      u := u.(rhythmContactId := AsText(rhythm["contact_id"]));
    }
    if Empty(u.rhythmContactId) && !Empty(u.idToken) && tokenContact.Some? {
      u := u.(rhythmContactId := AsText(tokenContact.value));
    }
  }

  /** The `name` block of `updateUserFromUserInfo()`. */
  method SetNames(u0: User, info: Json) returns (u: User)
    ensures u == NameStep(u0, info)
  {
    u := u0;
    var name := Claim(info, "name");
    if name.Some? && Truthy(name.value) {
      var parts := SplitAt(Trim(AsText(name.value)), ' ');
      if FirstOpen(u) {
        u := u.(firstName := parts.before);
      }
      if Empty(u.lastName) && parts.after.Some? {
        u := u.(lastName := parts.after.value);
      }
    }
  }

  /** The `given_name`, `family_name` and `picture` blocks of `updateUserFromUserInfo()`. */
  method FillClaims(u0: User, info: Json) returns (u: User)
    ensures u == FillStep(u0, info)
  {
    u := u0;
    var given := Claim(info, "given_name");
    if given.Some? && FirstOpen(u) {
      u := u.(firstName := AsText(given.value));
    }
    var family := Claim(info, "family_name");
    if family.Some? && Empty(u.lastName) {
      u := u.(lastName := AsText(family.value));
    }
    var picture := Claim(info, "picture");
    if picture.Some? && Empty(u.avatar) {
      u := u.(avatar := AsText(picture.value));
    }
  }

  /** The userinfo client, bound to the tenant domain. */
  class UserInfoService {
    var domain: string

    /** Trims the slashes off the configured domain and adds "https://" when it names no http(s) scheme. */
    constructor (settingsDomain: string)
      ensures domain == NormalizedDomain(settingsDomain)
    {
      var d := TrimChars(settingsDomain, {'/'});
      if !HasHttpScheme(d) {
        d := "https://" + d;
      }
      domain := d;
    }

    /**
     * `getUserInfo()`: an empty token fails before any request; otherwise the
     * domain's /userinfo endpoint is asked, through `get(endpoint, token)`.
     */
    method GetUserInfo(token: string, get: (string, string) -> Result<Reply, string>) returns (r: Result<Json, Thrown>)
      ensures Empty(token) ==> r == Failure(Exception("Access token is required"))
      ensures !Empty(token) ==> r == Fetched(get(domain + "/userinfo", token))
    {
      if Empty(token) {
        return Failure(Exception("Access token is required"));
      }
      var endpoint := domain + "/userinfo";
      var reply := get(endpoint, token);
      r := Fetched(reply);
    }

    /**
     * `testConnection()`: no token gives the failure message without a
     * request; an exception from the request gives "Connection failed: " and
     * its message; a TypeError, from the request's logging or from the
     * claims merge, is not caught and comes out as a Failure; otherwise the
     * subject, the email and the Rhythm data are reported.
     */
    method TestConnection(token: string, get: (string, string) -> Result<Reply, string>) returns (r: Result<Probe, string>)
      ensures Empty(token) ==> r == Success(Failed(NoTokenMessage))
      ensures !Empty(token) && Fetched(get(domain + "/userinfo", token)).Failure? ==>
        var thrown := Fetched(get(domain + "/userinfo", token)).error;
        r == if thrown.Exception? then Success(Failed("Connection failed: " + thrown.message)) else Failure(thrown.message)
      ensures !Empty(token) && Fetched(get(domain + "/userinfo", token)).Success? ==>
        var info := Fetched(get(domain + "/userinfo", token)).value;
        r == match ExtractRhythmData(info)
             case Failure(e) => Failure(e)
             case Success(rhythm) =>
               Success(Connected("Successfully retrieved user info from Auth0",
                                 ClaimOr(info, "sub", JStr("Unknown")), ClaimOr(info, "email", JStr("Unknown")), rhythm))
      ensures r.Success? && r.value.Connected? ==>
        !Empty(token) && Fetched(get(domain + "/userinfo", token)).Success? &&
        ExtractRhythmData(Fetched(get(domain + "/userinfo", token)).value) == Success(r.value.rhythm)
    {
      if Empty(token) {
        return Success(Failed(NoTokenMessage));
      }
      var info := GetUserInfo(token, get);
      if info.Failure? {
        if info.error.TypeError? {
          return Failure(info.error.message);
        }
        return Success(Failed("Connection failed: " + info.error.message));
      }
      var rhythm := ExtractRhythmData(info.value);
      if rhythm.Failure? {
        return Failure(rhythm.error);
      }
      r := Success(Connected("Successfully retrieved user info from Auth0",
                             ClaimOr(info.value, "sub", JStr("Unknown")),
                             ClaimOr(info.value, "email", JStr("Unknown")),
                             rhythm.value));
    }

    /**
     * `updateUserFromUserInfo()` on the user `id` of the store. `saves` says
     * whether the save succeeds; a failed save is caught and gives false with
     * the store unchanged; a TypeError from the claims merge is not caught.
     */
    method UpdateUserFromUserInfo(store: UserStore, id: nat, info: Json, tokenContact: Option<Json>, now: int, saves: bool)
      returns (r: Result<bool, string>)
      requires id < |store.users|
      modifies store
      ensures ExtractRhythmData(info).Failure? ==> r == Failure(ExtractRhythmData(info).error) && store.users == old(store.users)
      ensures ExtractRhythmData(info).Success? ==> r == Success(saves)
      ensures ExtractRhythmData(info).Success? && saves ==>
        store.users == old(store.users)[id := ApplyUserInfo(old(store.users)[id], info, ExtractRhythmData(info).value, tokenContact, now)]
      ensures !saves ==> store.users == old(store.users)
    {
      var extracted := ExtractRhythmData(info);
      if extracted.Failure? {
        return Failure(extracted.error);
      }
      var rhythm := extracted.value;
      var u := store.users[id];
      u := SetContact(u, rhythm, tokenContact);
      u := SetNames(u, info);
      u := FillClaims(u, info);
      u := u.(userInfo := Some(info), userInfoUpdatedAt := Some(now));
      if !saves {
        return Success(false);
      }
      store.users := store.users[id := u];
      r := Success(true);
    }
  }
}

=== FILE: users.dfy ===
/**
 * Turning the identity the provider reports into a local user record
 * (classes/Auth0Provider.php): name derivation, username generation, the
 * create and update rules, and the lookup chain of `findOrCreateUser`,
 * over a user store held in a class.
 */
module Users {
  import opened Wrappers
  import opened Php
  import opened Settings

  /** A user record; "" stands for a null text column. */
  datatype User = User(
    email: string,
    username: string,
    password: string,
    firstName: string,
    lastName: string,
    auth0Id: Option<string>,
    accessToken: string,
    refreshToken: string,
    idToken: string,
    avatar: string,
    activatedAt: Option<int>,
    isGuest: bool,
    createdIp: string,
    lastIp: string,
    primaryGroupId: Option<nat>,
    groups: set<nat>,
    rhythmContactId: string,
    userInfo: Option<Json>,
    userInfoUpdatedAt: Option<int>)

  /**
   * The identity the provider returns after the code exchange: the subject,
   * the standard claims of section 5.1 of OpenID Connect Core 1.0 the plugin
   * reads, and the tokens. "" stands for an absent claim.
   */
  datatype Claims = Claims(
    id: string,
    email: string,
    name: string,
    nickname: string,
    avatar: string,
    token: string,
    refreshToken: string,
    idToken: string,
    givenName: string,
    familyName: string)

  /** Values from outside the plugin: the clock, the client address, a random password, the user groups that exist. */
  datatype Env = Env(now: int, ip: string, password: string, groups: set<nat>)

  // ---------------------------------------------------------------------------
  // Names

  datatype Name = Name(first: string, last: string)

  /** `parseFullName()`: the trimmed name cut at its first space. */
  function ParseFullName(full: string): (n: Name)
    ensures ' ' !in n.first
    ensures ' ' in Trim(full) ==> Trim(full) == n.first + " " + n.last
    ensures ' ' !in Trim(full) ==> n == Name(Trim(full), "")
  {
    var cut := SplitAt(Trim(full), ' ');
    Name(cut.before, if cut.after.Some? then cut.after.value else "")
  }

  /** `strstr($email, '@', true)`: the part before the first '@'; "" (PHP's false) when there is none. */
  function EmailPrefix(email: string): (p: string)
    ensures '@' !in p
    ensures '@' in email ==> |p| < |email| && email[..|p|] == p && email[|p|] == '@'
    ensures '@' !in email ==> p == ""
  {
    var cut := SplitAt(email, '@');
    if cut.after.Some? then
      assert email == cut.before + ['@'] + cut.after.value;
      assert email[..|cut.before|] == cut.before;
      cut.before
    else ""
  }

  /** A name read off an e-mail prefix: '.' is tried before '_', and only that separator becomes a space. */
  function EmailName(prefix: string): (n: Name)
    ensures '.' in prefix ==> n == ParseFullName(ReplaceChar(prefix, '.', ' '))
    ensures '.' !in prefix && '_' in prefix ==> n == ParseFullName(ReplaceChar(prefix, '_', ' '))
    ensures '.' !in prefix && '_' !in prefix ==> n == Name(prefix, "")
  {
    if '.' in prefix then ParseFullName(ReplaceChar(prefix, '.', ' '))
    else if '_' in prefix then ParseFullName(ReplaceChar(prefix, '_', ' '))
    else Name(prefix, "")
  }

  /**
   * The name-derivation chain: the first source that is not `empty()` wins,
   * in the order given name (with the family name), full name, nickname,
   * e-mail prefix; with none of them both names are "".
   */
  function DeriveName(c: Claims): (n: Name)
    ensures !Empty(c.givenName) ==> n == Name(c.givenName, c.familyName)
    ensures Empty(c.givenName) && !Empty(c.name) && !Empty(Trim(c.name)) ==> n == ParseFullName(c.name)
    ensures Empty(c.givenName) && (Empty(c.name) || Empty(Trim(c.name))) && !Empty(c.nickname) ==>
      n == if ' ' in c.nickname then ParseFullName(c.nickname) else Name(c.nickname, "")
    ensures Empty(c.givenName) && (Empty(c.name) || Empty(Trim(c.name))) && Empty(c.nickname) ==>
      n == if !Empty(c.email) then EmailName(EmailPrefix(c.email)) else Name("", "")
  {
    if !Empty(c.givenName) then Name(c.givenName, c.familyName)
    else if !Empty(c.name) && !Empty(Trim(c.name)) then ParseFullName(c.name)
    else if !Empty(c.nickname) then
      (if ' ' in c.nickname then ParseFullName(c.nickname) else Name(c.nickname, ""))
    else if !Empty(c.email) then EmailName(EmailPrefix(c.email))
    else Name("", "")
  }

  /** The name a new user gets: the derived one, with "User" standing in for an empty first name. */
  function CreatedName(c: Claims): (n: Name)
    ensures !Empty(n.first)
    ensures n.last == DeriveName(c).last
    ensures n.first != DeriveName(c).first ==> Empty(DeriveName(c).first) && n.first == "User"
  {
    var d := DeriveName(c);
    if Empty(d.first) then Name("User", d.last) else d
  }

  /**
   * An e-mail prefix split at '.' keeps every character as written: the
   * first and last name joined by a space are the prefix with its dots
   * turned into spaces (nothing is capitalised).
   */
  lemma EmailNameKeepsCharacters(p: string)
    requires '.' in p
    requires p[0] !in TrimWhitespace + {'.'} && p[|p| - 1] !in TrimWhitespace + {'.'}
    ensures EmailName(p).first + " " + EmailName(p).last == ReplaceChar(p, '.', ' ')
  {
    var r := ReplaceChar(p, '.', ' ');
    assert Trim(r) == r by {
      assert r[0] == p[0] && r[|r| - 1] == p[|p| - 1];
      TrimCharsUntouched(r, TrimWhitespace);
    }
    var i :| 0 <= i < |p| && p[i] == '.';
    assert r[i] == ' ';
  }

  /** The prefix of "jane.doe@x.com". */
  lemma JaneDoePrefix()
    ensures EmailPrefix("jane.doe@x.com") == "jane.doe"
  {
    var email := "jane.doe@x.com";
    assert email == "jane.doe" + ['@'] + "x.com";
    SplitAtIs(email, '@', "jane.doe", "x.com");
  }

  /** "jane.doe" read as a name. */
  lemma JaneDoeName()
    ensures EmailName("jane.doe") == Name("jane", "doe")
  {
    var r := ReplaceChar("jane.doe", '.', ' ');
    assert r == "jane doe";
    assert Trim(r) == r by {
      TrimCharsUntouched(r, TrimWhitespace);
    }
    assert r == "jane" + [' '] + "doe";
    SplitAtIs(r, ' ', "jane", "doe");
  }

  /** The email jane.doe@x.com as the code derives it: split at the dot, nothing capitalised. */
  lemma JaneDoe()
    ensures DeriveName(Claims("auth0|1", "jane.doe@x.com", "", "", "", "", "", "", "", "")) == Name("jane", "doe")
  {
    JaneDoePrefix();
    JaneDoeName();
  }

  // ---------------------------------------------------------------------------
  // Usernames

  /** The k-th name `generateUsername()` tries: the base, then base1, base2, ... */
  function Candidate(base: string, k: nat): string {
    if k == 0 then base else base + NatToString(k)
  }

  /** Suffixes are always appended to the base, so no two tries coincide. */
  lemma CandidatesDistinct(base: string, j: nat, k: nat)
    requires j != k
    ensures Candidate(base, j) != Candidate(base, k)
  {
    if j != 0 && k != 0 && Candidate(base, j) == Candidate(base, k) {
      var a, b := NatToString(j), NatToString(k);
      assert |a| == |b|;
      assert (base + a)[|base|..] == a && (base + b)[|base|..] == b;
      NatToStringInjective(j, k);
    }
  }

  /** The names tried before the k-th. */
  ghost function Tried(base: string, k: nat): set<string> {
    set j | 0 <= j < k :: Candidate(base, j)
  }

  /** Each taken name tried leaves one taken name fewer untried. */
  lemma TriedShrinks(base: string, taken: set<string>, k: nat)
    requires Candidate(base, k) in taken
    ensures |taken - Tried(base, k + 1)| < |taken - Tried(base, k)|
  {
    var c := Candidate(base, k);
    assert c !in Tried(base, k) by {
      forall j | 0 <= j < k ensures Candidate(base, j) != c {
        CandidatesDistinct(base, j, k);
      }
    }
    assert Tried(base, k + 1) == Tried(base, k) + {c};
    assert taken - Tried(base, k + 1) == (taken - Tried(base, k)) - {c};
  }

  /** The first try from the k-th on that is not taken, when all before the k-th are. */
  function FirstFree(base: string, taken: set<string>, k: nat): (r: nat)
    requires forall j :: 0 <= j < k ==> Candidate(base, j) in taken
    ensures k <= r
    ensures Candidate(base, r) !in taken
    ensures forall j :: 0 <= j < r ==> Candidate(base, j) in taken
    decreases |taken - Tried(base, k)|
  {
    if Candidate(base, k) !in taken then k
    else
      TriedShrinks(base, taken, k);
      FirstFree(base, taken, k + 1)
  }

  /** Only one try is the first that is not taken. */
  lemma FirstFreeUnique(base: string, taken: set<string>, k: nat)
    requires Candidate(base, k) !in taken
    requires forall j :: 0 <= j < k ==> Candidate(base, j) in taken
    ensures FirstFree(base, taken, 0) == k
  {
  }

  /** The name `generateUsername()` settles on: the first try that is not taken. */
  function UsernameFor(base: string, taken: set<string>): (name: string)
    ensures name !in taken
    ensures base !in taken ==> name == base
    ensures exists k: nat :: name == Candidate(base, k) && forall j :: 0 <= j < k ==> Candidate(base, j) in taken
  {
    Candidate(base, FirstFree(base, taken, 0))
  }

  /** The usernames in use. */
  function Taken(users: seq<User>): set<string> {
    set i | 0 <= i < |users| :: users[i].username
  }

  // ---------------------------------------------------------------------------
  // Lookups

  /** `User::where('auth0_id', $id)->first()`: the first user linked to the subject. */
  function FindByAuth0Id(users: seq<User>, id: string): (r: Option<nat>)
    ensures r.Some? ==> r.value < |users| && users[r.value].auth0Id == Some(id)
    ensures r.Some? ==> forall j :: 0 <= j < r.value ==> users[j].auth0Id != Some(id)
    ensures r.None? ==> forall j :: 0 <= j < |users| ==> users[j].auth0Id != Some(id)
  {
    if users == [] then None
    else if users[0].auth0Id == Some(id) then Some(0)
    else match FindByAuth0Id(users[1..], id)
      case None => None
      case Some(i) => Some(i + 1)
  }

  /** `User::where('email', $email)->first()`: the first user with the address. */
  function FindByEmail(users: seq<User>, email: string): (r: Option<nat>)
    ensures r.Some? ==> r.value < |users| && users[r.value].email == email
    ensures r.Some? ==> forall j :: 0 <= j < r.value ==> users[j].email != email
    ensures r.None? ==> forall j :: 0 <= j < |users| ==> users[j].email != email
  {
    if users == [] then None
    else if users[0].email == email then Some(0)
    else match FindByEmail(users[1..], email)
      case None => None
      case Some(i) => Some(i + 1)
  }

  // ---------------------------------------------------------------------------
  // Creating and updating

  /** The default group a new user joins: set (non-zero) in the settings and existing. */
  function DefaultGroup(cfg: Config, env: Env): (g: Option<nat>)
    ensures g.Some? ==> g == cfg.defaultUserGroup && g.value != 0 && g.value in env.groups
    ensures cfg.defaultUserGroup.Some? && cfg.defaultUserGroup.value != 0 && cfg.defaultUserGroup.value in env.groups ==>
      g == cfg.defaultUserGroup
  {
    match cfg.defaultUserGroup
    case Some(id) => if id != 0 && id in env.groups then Some(id) else None
    case None => None
  }

  /** The record `createUserFromAuth0()` saves. */
  function NewUser(c: Claims, username: string, cfg: Config, env: Env): (u: User)
    ensures !Empty(u.firstName)
    ensures u.firstName == CreatedName(c).first && u.lastName == CreatedName(c).last && u.avatar == c.avatar
    ensures u.rhythmContactId == "" && u.userInfo.None? && u.userInfoUpdatedAt.None?
    ensures u.auth0Id == Some(c.id) && u.activatedAt == Some(env.now)
    ensures u.email == c.email && u.username == username && u.password == env.password
    ensures u.accessToken == c.token && u.refreshToken == c.refreshToken && u.idToken == c.idToken
    ensures !u.isGuest && u.createdIp == env.ip && u.lastIp == env.ip
    ensures u.primaryGroupId == DefaultGroup(cfg, env)
    ensures u.groups == if DefaultGroup(cfg, env).Some? then {DefaultGroup(cfg, env).value} else {}
  {
    var n := CreatedName(c);
    var g := DefaultGroup(cfg, env);
    User(c.email, username, env.password, n.first, n.last, Some(c.id),
         c.token, c.refreshToken, c.idToken, c.avatar, Some(env.now), false,
         env.ip, env.ip, g, if g.Some? then {g.value} else {}, "", None, None)
  }

  /** The first name still holds nothing worth keeping: empty or the placeholder "User". */
  predicate FirstOpen(u: User) {
    Empty(u.firstName) || u.firstName == "User"
  }

  /** The fields an update from the provider never touches are those of `u`. */
  predicate SameAccount(u: User, r: User) {
    r.email == u.email && r.username == u.username && r.password == u.password
    && r.isGuest == u.isGuest && r.createdIp == u.createdIp
    && r.primaryGroupId == u.primaryGroupId && r.groups == u.groups
    && r.rhythmContactId == u.rhythmContactId
    && r.userInfo == u.userInfo && r.userInfoUpdatedAt == u.userInfoUpdatedAt
  }

  /**
   * The names after a sync: the derived first name replaces an empty or
   * placeholder one, the derived last name an empty one, and only when the
   * derived value is not empty.
   */
  function SyncedName(u: User, c: Claims): (n: Name)
    ensures n.first == if FirstOpen(u) && !Empty(DeriveName(c).first) then DeriveName(c).first else u.firstName
    ensures n.last == if Empty(u.lastName) && !Empty(DeriveName(c).last) then DeriveName(c).last else u.lastName
  {
    if FirstOpen(u) || Empty(u.lastName) then
      var d := DeriveName(c);
      Name(if !Empty(d.first) && FirstOpen(u) then d.first else u.firstName,
           if !Empty(d.last) && Empty(u.lastName) then d.last else u.lastName)
    else Name(u.firstName, u.lastName)
  }

  /** The record `updateUserFromAuth0()` saves, with `sync` the `sync_user_data` setting. */
  function UpdatedFromAuth0(u: User, c: Claims, sync: bool, env: Env): (r: User)
    ensures SameAccount(u, r)
    ensures r.auth0Id == Some(c.id) && r.lastIp == env.ip
    ensures r.accessToken == c.token && r.refreshToken == c.refreshToken && r.idToken == c.idToken
    ensures r.activatedAt == if u.activatedAt.Some? then u.activatedAt else Some(env.now)
    ensures r.avatar == if sync && Empty(u.avatar) then c.avatar else u.avatar
    ensures sync ==> r.firstName == SyncedName(u, c).first && r.lastName == SyncedName(u, c).last
    ensures !sync ==> r.firstName == u.firstName && r.lastName == u.lastName
  {
    var linked := u.(auth0Id := Some(c.id), accessToken := c.token, refreshToken := c.refreshToken,
                     idToken := c.idToken, lastIp := env.ip);
    var synced :=
      if !sync then linked
      else
        var n := SyncedName(u, c);
        linked.(avatar := if Empty(u.avatar) then c.avatar else u.avatar,
                firstName := n.first, lastName := n.last);
    if synced.activatedAt.Some? then synced else synced.(activatedAt := Some(env.now))
  }

  /** An update never overwrites a filled field: a kept name, a set last name and avatar, an activation time. */
  lemma UpdateKeepsFilled(u: User, c: Claims, sync: bool, env: Env)
    ensures !FirstOpen(u) ==> UpdatedFromAuth0(u, c, sync, env).firstName == u.firstName
    ensures !Empty(u.lastName) ==> UpdatedFromAuth0(u, c, sync, env).lastName == u.lastName
    ensures !Empty(u.avatar) ==> UpdatedFromAuth0(u, c, sync, env).avatar == u.avatar
    ensures u.activatedAt.Some? ==> UpdatedFromAuth0(u, c, sync, env).activatedAt == u.activatedAt
    ensures !sync ==> (UpdatedFromAuth0(u, c, sync, env) ==
      u.(auth0Id := Some(c.id), accessToken := c.token, refreshToken := c.refreshToken,
         idToken := c.idToken, lastIp := env.ip,
         activatedAt := if u.activatedAt.Some? then u.activatedAt else Some(env.now)))
  {
  }

  /** Updating twice from the same claims is updating once. */
  lemma UpdateIdempotent(u: User, c: Claims, sync: bool, env: Env)
    ensures UpdatedFromAuth0(UpdatedFromAuth0(u, c, sync, env), c, sync, env) == UpdatedFromAuth0(u, c, sync, env)
  {
    var r := UpdatedFromAuth0(u, c, sync, env);
    var r2 := UpdatedFromAuth0(r, c, sync, env);
    var d := DeriveName(c);
    assert r2.firstName == r.firstName by {
      if sync && FirstOpen(r) && !Empty(d.first) {
        if FirstOpen(u) { assert r.firstName == d.first; }
      }
    }
    assert r2.lastName == r.lastName;
    assert r2.avatar == r.avatar;
  }

  /** A record just created from the claims is left as it is by an update from the same claims. */
  lemma UpdateOfNewUser(c: Claims, username: string, cfg: Config, env: Env, sync: bool)
    ensures UpdatedFromAuth0(NewUser(c, username, cfg, env), c, sync, env) == NewUser(c, username, cfg, env)
  {
    var n := NewUser(c, username, cfg, env);
    var d := DeriveName(c);
    var r := UpdatedFromAuth0(n, c, sync, env);
    assert r.firstName == n.firstName by {
      if sync && FirstOpen(n) && !Empty(d.first) {
        assert n.firstName == CreatedName(c).first;
      }
    }
  }

  // ---------------------------------------------------------------------------
  // findOrCreateUser

  /** The user a login resolves to (None: not found and not created) and the store afterwards. */
  datatype Resolution = Resolution(user: Option<nat>, users: seq<User>)

  /**
   * `findOrCreateUser()` on a store: a user linked to the subject, else a
   * user with the e-mail address (linked now), else a new user when the
   * settings allow it.
   */
  function Resolve(users: seq<User>, c: Claims, cfg: Config, env: Env): (r: Resolution)
    ensures r.user.Some? ==> r.user.value < |r.users| && r.users[r.user.value].auth0Id == Some(c.id)
    ensures r.user.None? <==> FindByAuth0Id(users, c.id).None? && FindByEmail(users, c.email).None? && !cfg.autoCreateUsers
    ensures r.user.None? ==> r.users == users
    ensures |r.users| == |users| || (|r.users| == |users| + 1 && r.users[..|users|] == users)
  {
    match FindByAuth0Id(users, c.id)
    case Some(i) =>
      Resolution(Some(i), if cfg.syncUserData then users[i := UpdatedFromAuth0(users[i], c, true, env)] else users)
    case None =>
      match FindByEmail(users, c.email)
      case Some(i) => Resolution(Some(i), users[i := UpdatedFromAuth0(users[i], c, cfg.syncUserData, env)])
      case None =>
        if !cfg.autoCreateUsers then Resolution(None, users)
        else
          var name := UsernameFor(EmailPrefix(c.email), Taken(users));
          Resolution(Some(|users|), users + [NewUser(c, name, cfg, env)])
  }

  /** A user linked to the subject wins over any user with the same e-mail address; with sync off it is returned untouched. */
  lemma ResolvePrefersSubject(users: seq<User>, c: Claims, cfg: Config, env: Env, k: nat)
    requires k < |users| && users[k].auth0Id == Some(c.id)
    ensures Resolve(users, c, cfg, env).user == FindByAuth0Id(users, c.id)
    ensures FindByAuth0Id(users, c.id).Some? && FindByAuth0Id(users, c.id).value <= k
    ensures !cfg.syncUserData ==> Resolve(users, c, cfg, env).users == users
    ensures cfg.syncUserData ==> var i := FindByAuth0Id(users, c.id).value;
      Resolve(users, c, cfg, env).users == users[i := UpdatedFromAuth0(users[i], c, true, env)]
  {
  }

  /** A user found only by e-mail address is linked to the subject, whatever the sync setting. */
  lemma ResolveLinksByEmail(users: seq<User>, c: Claims, cfg: Config, env: Env)
    requires FindByAuth0Id(users, c.id).None? && FindByEmail(users, c.email).Some?
    ensures var i := FindByEmail(users, c.email).value;
      Resolve(users, c, cfg, env) == Resolution(Some(i), users[i := UpdatedFromAuth0(users[i], c, cfg.syncUserData, env)])
  {
  }

  /** Without a match, exactly one user is added, linked, activated, named as `CreatedName` says and with a free username; or, with auto-creation off, nothing changes. */
  lemma ResolveCreates(users: seq<User>, c: Claims, cfg: Config, env: Env)
    requires FindByAuth0Id(users, c.id).None? && FindByEmail(users, c.email).None?
    ensures !cfg.autoCreateUsers ==> Resolve(users, c, cfg, env) == Resolution(None, users)
    ensures cfg.autoCreateUsers ==> (
      var r := Resolve(users, c, cfg, env);
      r.user == Some(|users|) && |r.users| == |users| + 1 && r.users[..|users|] == users
      && r.users[|users|].auth0Id == Some(c.id) && r.users[|users|].activatedAt == Some(env.now)
      && r.users[|users|].username !in Taken(users) && !Empty(r.users[|users|].firstName)
      && r.users[|users|].firstName == CreatedName(c).first && r.users[|users|].lastName == CreatedName(c).last)
  {
    if cfg.autoCreateUsers {
      var r := Resolve(users, c, cfg, env);
      assert r.users[..|users|] == users;
    }
  }

  /** Usernames are unique in the store. */
  predicate UniqueUsernames(users: seq<User>) {
    forall i, j :: 0 <= i < j < |users| ==> users[i].username != users[j].username
  }

  /** Each subject is linked to at most one user. */
  predicate UniqueSubjects(users: seq<User>) {
    forall i, j :: 0 <= i < j < |users| && users[i].auth0Id.Some? ==> users[i].auth0Id != users[j].auth0Id
  }

  /** Resolving a login keeps usernames and subjects unique. */
  lemma ResolveKeepsUnique(users: seq<User>, c: Claims, cfg: Config, env: Env)
    requires UniqueUsernames(users) && UniqueSubjects(users)
    ensures UniqueUsernames(Resolve(users, c, cfg, env).users)
    ensures UniqueSubjects(Resolve(users, c, cfg, env).users)
  {
    var r := Resolve(users, c, cfg, env);
    if FindByAuth0Id(users, c.id).None? && FindByEmail(users, c.email).None? && cfg.autoCreateUsers {
      var u := r.users[|users|];
      assert r.users == users + [u];
      forall i | 0 <= i < |users| ensures users[i].username != u.username {
        assert users[i].username in Taken(users);
      }
    }
  }

  /**
   * Resolving the same login a second time finds the same user and changes
   * nothing more: the first pass leaves the store in the state the second
   * pass would produce.
   */
  lemma ResolveIdempotent(users: seq<User>, c: Claims, cfg: Config, env: Env)
    requires Resolve(users, c, cfg, env).user.Some?
    ensures var r := Resolve(users, c, cfg, env);
      Resolve(r.users, c, cfg, env) == r
  {
    var r := Resolve(users, c, cfg, env);
    var i := r.user.value;
    assert FindByAuth0Id(r.users, c.id) == Some(i) by {
      FirstLinkedAfterResolve(users, c, cfg, env);
    }
    if cfg.syncUserData {
      match FindByAuth0Id(users, c.id)
      case Some(_) =>
        UpdateIdempotent(users[i], c, true, env);
        assert r.users[i := UpdatedFromAuth0(r.users[i], c, true, env)] == r.users;
      case None =>
        match FindByEmail(users, c.email)
        case Some(_) =>
          UpdateIdempotent(users[i], c, true, env);
          assert r.users[i := UpdatedFromAuth0(r.users[i], c, true, env)] == r.users;
        case None =>
          var name := UsernameFor(EmailPrefix(c.email), Taken(users));
          UpdateOfNewUser(c, name, cfg, env, true);
          assert r.users[i := UpdatedFromAuth0(r.users[i], c, true, env)] == r.users;
    }
  }

  /** After a resolution, the resolved user is the first one linked to the subject. */
  lemma FirstLinkedAfterResolve(users: seq<User>, c: Claims, cfg: Config, env: Env)
    requires Resolve(users, c, cfg, env).user.Some?
    ensures FindByAuth0Id(Resolve(users, c, cfg, env).users, c.id) == Resolve(users, c, cfg, env).user
  {
    var r := Resolve(users, c, cfg, env);
    var i := r.user.value;
    assert r.users[i].auth0Id == Some(c.id);
    assert forall j :: 0 <= j < i ==> r.users[j].auth0Id != Some(c.id) by {
      forall j | 0 <= j < i ensures r.users[j].auth0Id != Some(c.id) {
        assert r.users[j] == users[j];
      }
    }
    FirstLinkedIs(r.users, c.id, i);
  }

  /** The first user linked to a subject is the one found. */
  lemma FirstLinkedIs(users: seq<User>, id: string, i: nat)
    requires i < |users| && users[i].auth0Id == Some(id)
    requires forall j :: 0 <= j < i ==> users[j].auth0Id != Some(id)
    ensures FindByAuth0Id(users, id) == Some(i)
  {
  }

  // ---------------------------------------------------------------------------
  // The store

  /** The users table, changed in place by the login flow. */
  class UserStore {
    var users: seq<User>

    constructor (users0: seq<User>)
      ensures users == users0
    {
      users := users0;
    }

    /** `generateUsername()`: tries the e-mail prefix, then prefix1, prefix2, ... until one is free. */
    method GenerateUsername(email: string) returns (name: string)
      ensures name == UsernameFor(EmailPrefix(email), Taken(users))
      ensures name !in Taken(users)
    {
      var base := EmailPrefix(email);
      var taken := Taken(users);
      name := base;
      var counter: nat := 1;
      while name in taken
        invariant name == Candidate(base, counter - 1)
        invariant forall j :: 0 <= j < counter - 1 ==> Candidate(base, j) in taken
        decreases |taken - Tried(base, counter - 1)|
      {
        TriedShrinks(base, taken, counter - 1);
        name := base + NatToString(counter);
        counter := counter + 1;
      }
      FirstFreeUnique(base, taken, counter - 1);
    }

    /** `updateUserFromAuth0()`: always links and refreshes the tokens; fills names and avatar only when syncing. */
    method UpdateUserFromAuth0(id: nat, c: Claims, cfg: Config, env: Env)
      requires id < |users|
      modifies this
      ensures users == old(users)[id := UpdatedFromAuth0(old(users)[id], c, cfg.syncUserData, env)]
    {
      var u := users[id];
      u := u.(auth0Id := Some(c.id), accessToken := c.token, refreshToken := c.refreshToken);
      u := u.(idToken := c.idToken, lastIp := env.ip);
      if cfg.syncUserData {
        if Empty(u.avatar) {
          u := u.(avatar := c.avatar);
        }
        if Empty(u.firstName) || u.firstName == "User" || Empty(u.lastName) {
          var n := DeriveName(c);
          if !Empty(n.first) && (Empty(u.firstName) || u.firstName == "User") {
            u := u.(firstName := n.first);
          }
          if !Empty(n.last) && Empty(u.lastName) {
            u := u.(lastName := n.last);
          }
        }
      }
      if u.activatedAt.None? {
        u := u.(activatedAt := Some(env.now));
      }
      users := users[id := u];
    }

    /** `createUserFromAuth0()`: appends one record for the claims. */
    method CreateUserFromAuth0(c: Claims, cfg: Config, env: Env) returns (id: nat)
      modifies this
      ensures id == |old(users)|
      ensures users == old(users) + [NewUser(c, UsernameFor(EmailPrefix(c.email), Taken(old(users))), cfg, env)]
    {
      var n := CreatedName(c);
      var username := GenerateUsername(c.email);
      var u := User(c.email, username, env.password, n.first, n.last, Some(c.id),
                    c.token, c.refreshToken, c.idToken, c.avatar, Some(env.now), false,
                    env.ip, env.ip, None, {}, "", None, None);
      var g := DefaultGroup(cfg, env);
      if g.Some? {
        u := u.(primaryGroupId := g);
      }
      id := |users|;
      if g.Some? {
        u := u.(groups := u.groups + {g.value});
      }
      assert u == NewUser(c, username, cfg, env);
      users := users + [u];
    }

    /** `findOrCreateUser()`: by subject, then by e-mail address, then created if allowed. */
    method FindOrCreateUser(c: Claims, cfg: Config, env: Env) returns (r: Option<nat>)
      modifies this
      ensures Resolution(r, users) == Resolve(old(users), c, cfg, env)
    {
      var byId := FindByAuth0Id(users, c.id);
      if byId.Some? {
        if cfg.syncUserData {
          UpdateUserFromAuth0(byId.value, c, cfg, env);
        }
        return byId;
      }
      var byEmail := FindByEmail(users, c.email);
      if byEmail.Some? {
        UpdateUserFromAuth0(byEmail.value, c, cfg, env);
        return byEmail;
      }
      if !cfg.autoCreateUsers {
        return None;
      }
      var id := CreateUserFromAuth0(c, cfg, env);
      r := Some(id);
    }
  }
}

=== FILE: wrappers.dfy ===
/** Optional values and success/failure results, standing for PHP's null and exceptions. */
module Wrappers {

  datatype Option<+T> = None | Some(value: T)

  datatype Result<+T, +E> = Success(value: T) | Failure(error: E)
}
